=== FILE: README.md ===
# Side-scroller simulation core in Dafny

This project models the simulation core of a small 2D platformer. The game runs on a
tile map loaded from CSV text: a player runs, jumps and slides on walls; ambush traps
charge in from the screen edge; falling blocks drop onto the player and then become
ground; and the player fires bullets. Everything that draws, loads models or reads
devices is outside the model. What remains is pure state-transition logic, written
as Dafny functions over immutable records, together with the properties that logic
promises.

Modules (one file each):

- `Common` (`common.dfy`): `Option` and `Result`.
- `Geometry` (`geometry.dfy`): the 0.7 tile size, `Vec2`, tile indexing by floor, and
  closed box overlap.
- `MapChip` (`mapchip.dfy`): the grid and the `Load` operation. `Load` covers CSV line
  parsing with the `std::getline` splitting rules, empty field as 0, and rejection of
  non-numeric fields, plus the placement of one block model per cell holding 1. The
  module also has point collision, the cell lookup and the bounds-checked cell write
  that falling blocks use.
- `Player` (`player.dfy`): one `Player::Update` tick, split into its steps:
  - gravity or wall slide;
  - vertical move and snap;
  - horizontal move and snap, with the right-edge exit lane;
  - jump buffer and jump choice;
  - facing.

  The module also models `SetPosition`, `Initialize`, `Die`, `Reset` and `IsExiting`.
- `Trap` (`trap.dfy`): the one-shot ambush wall. Its state machine is Idle, Attacking,
  Waiting, Returning, Finished, and it is edge-triggered on the player's height band.
- `FallingBlock` (`fallingblock.dfy`): the falling block's state machine. The block
  claims its landing cell as solid in the shared grid. When it releases that cell
  (spike rise or reset), it writes its type code back.
- `PlayerBullet` (`playerbullet.dfy`): the bullet's flight, lifetime and wall hit.
- `Game` (`game.dfy`): one composite tick. The player moves, then a trap and a falling
  block act on the moved player, and all three share one grid.

Floating point is modelled as exact `real` arithmetic. `floor` becomes `.Floor`, and
the 0.001 insets are kept exactly. Tick counts such as "120 ticks of waiting" are
therefore statements about exact arithmetic.

Some behaviour of the code is easy to misread. The model follows the code:

- A trap that kills the player goes straight to Returning, in both Attacking and
  Waiting (Trap.cpp:131-134, Trap.cpp:154-157). It does not finish its charge.
- When a falling block releases its claimed cell, it writes its own type code (3,
  4 or 6–10) into that cell, not 0 (FallingBlock.cpp:33, FallingBlock.cpp:134). The cell
  becomes passable either way, because only code 1 is solid.
- `Player::Update` runs its physics even when the player is dead. It has no alive
  check, and only the hazards ignore a dead player (Trap.cpp:53-55,
  FallingBlock.cpp:47-49).
- Collision treats every point outside the grid as solid, on all four sides
  (MapChip.cpp:104-106). The right-edge exit lane is a carve-out in the player's
  horizontal resolution only (Player.cpp:119-125).
- The trap assumes a 20-column map whatever the grid holds (Trap.cpp:23).

One property of the code as written stands out: the wall jump (Player.cpp:154-166)
can never fire. Wall contact is cleared at the start of every tick (Player.cpp:54).
It is set again only while the held direction pushes into the wall (Player.cpp:93-100,
Player.cpp:101-131), but the wall-jump guard requires the held direction not to push
into that wall. `Player.WallJumpUnreachable` proves this. The rest of the model uses
the code as written.

## Model

| member | source | states |
|---|---|---|
| Geometry.TileIndex | MapChip.cpp:100-101 | The tile index of a coordinate is the unique k with k·0.7 ≤ v < (k+1)·0.7 (floor of v / 0.7). |
| Geometry.TileIndexUnique | MapChip.cpp:100-101 | Any k whose tile contains v is the tile index of v, so two points in one tile share their index. |
| Geometry.BoxesTouchByDistance | Trap.cpp:196-214 | The four-sided rejection test in CheckCollision is equivalent to "centre distance on each axis is at most the sum of the half sizes", and it is symmetric in the two boxes. |
| MapChip.CheckCollision | MapChip.cpp:95-108 | In world terms: an empty map collides nowhere. On a non-empty map every point outside the rectangle [0, cols·0.7) × [0, rows·0.7) collides, on all four sides. Inside it, a point reads its own cell (row index inverted) and collides iff that cell holds exactly 1, so codes 2–10 are passable. |
| MapChip.SameTileSameAnswer | MapChip.cpp:100-107 | Collision depends only on the tile a point falls in. |
| MapChip.GetGridCoordinates | FallingBlock.cpp:104-106 | The cell under a point, or none (the -1 sentinel) exactly when the map is empty or the point is off the grid. |
| MapChip.CoordinatesAgreeWithCollision | MapChip.cpp:95-108 | The cell lookup and collision agree: a found cell collides iff it holds 1, and a point with no cell collides. |
| MapChip.SetGridCell | FallingBlock.cpp:107 | Writes one in-range cell, does nothing out of range, changes no other cell and no row length. |
| MapChip.ClaimedCellIsSolid | FallingBlock.cpp:102-107 | After writing 1 into an on-grid cell, every point in that cell collides. |
| MapChip.CentreRoundTrip | MapChip.cpp:72-74 | The centre placed for a cell maps back to that same cell, and it collides iff the cell holds 1. |
| MapChip.Split | MapChip.cpp:45 | Splitting on ',' yields at least one piece, and no piece contains a comma. |
| MapChip.JoinSplit | MapChip.cpp:44-45 | Joining the pieces with ',' gives back the line. |
| MapChip.SplitJoin | MapChip.cpp:44-45 | Splitting comma-free pieces joined with ',' gives back the pieces. |
| MapChip.Fields | MapChip.cpp:45-51 | The fields of a line are comma-free, and exactly one final empty piece is dropped: there are no fields iff the line is empty, and a non-empty line is the fields joined by ',', followed by one more ',' iff the line ends with ','. |
| MapChip.JoinEndsWithLast | MapChip.cpp:45 | A joined line ends with its last piece. |
| MapChip.JoinDropsEmptyLast | MapChip.cpp:45 | A final empty piece adds only its separating ',' to the joined line. |
| MapChip.SplitDigits | MapChip.cpp:45-49 | Every piece of a line is a digit string iff the line holds only digits and commas. |
| MapChip.ParseField | MapChip.cpp:46-50 | A field parses iff it is all digits. The empty field reads as 0, a non-empty digit field reads as its decimal value, and no field reads as a negative code. |
| MapChip.ParseFields | MapChip.cpp:45-51 | A row parses iff every field parses, and then the row has one value per field, in order. |
| MapChip.ParseRow | MapChip.cpp:42-52 | A line parses iff it holds only digits and commas, and then the row has one non-negative value per field, each the parse of its field, in order. |
| MapChip.ParseLines | MapChip.cpp:41-53 | The grid parses iff every line parses, and then it has one row per line, each row the parse of its line. |
| MapChip.RowRoundTrip | MapChip.cpp:42-52 | Parsing a rendered row of non-negative codes gives the row back, for any length. |
| MapChip.GridRoundTrip | MapChip.cpp:40-53 | Parsing rendered lines gives the grid back row for row, ragged rows included. |
| MapChip.EmptyFieldReadsZero | MapChip.cpp:46-47 | "1,,3" reads as [1, 0, 3]. |
| MapChip.TrailingCommaAddsNoCell | MapChip.cpp:45 | "1,2," reads as [1, 2], and an empty line reads as an empty row. |
| MapChip.NonDigitRejected | MapChip.cpp:49 | A non-numeric field makes the row fail to parse. |
| MapChip.OnesUpToSpec | MapChip.cpp:64-67 | The cells holding 1 in the first y rows, listed in strictly row-major order, are exactly those cells. |
| MapChip.PlaceBlocks | MapChip.cpp:64-80 | The nested loops place one block centre per cell holding 1, in row-major order. |
| MapChip.Load | MapChip.cpp:27-81 | Load succeeds iff every line parses. The new grid has one row per line, each the parse of its line, and the block list is built from that grid alone. |
| MapChip.BlocksMatchSolidCells | MapChip.cpp:64-78 | There is exactly one block per cell holding 1: no repeats, the count equals the number of such cells, and each block is at its cell's centre. |
| MapChip.BlocksAreSolid | MapChip.cpp:64-80 | Every placed block model sits where collision reports solid. |
| Player.MoveX | Player.cpp:38-42 | Horizontal speed is −0.1, 0 or 0.1; A wins over D. |
| Player.FallSpeed | Player.cpp:46-51 | The vertical speed after gravity: touching a wall in the air while falling faster than 0.02 caps the fall at 0.02, otherwise gravity subtracts 0.025. |
| Player.ResolveY | Player.cpp:56-76 | A downward move whose bottom probes hit lands the player on the top edge of the struck tile. An upward move whose top probes hit stops it under the struck tile's bottom edge. Otherwise the move is applied unchanged. |
| Player.LandedOnSolid | Player.cpp:65-70 | After landing, the points just under the player's new bottom edge, below the probe that hit, are solid. |
| Player.BumpedUnderSolid | Player.cpp:71-75 | After a ceiling bump, the points just above the new top edge are in the struck solid tile. |
| Player.MapWidth | Player.cpp:111-113 | The map width is the column count times 0.7, or 20 columns when the map has none. |
| Player.ResolveX | Player.cpp:78-133 | A blocked move snaps to 0.001 off the wall and stops. Wall contact is recorded only when airborne, on the side that blocked. An unblocked move is applied with no contact. |
| Player.ExitLaneLetsPlayerThrough | Player.cpp:110-125 | Beyond the map's right edge and inside the exit band, a rightward move is never stopped. |
| Player.BufferStep | Player.cpp:141-146 | The jump buffer counts down by 0.016 while positive; a press re-arms it to 0.1 after the countdown. |
| Player.BufferCountdown | Player.cpp:141-143 | Without presses the buffer goes 0.1, 0.084, …, and stops once it reaches or passes zero at the 7th step. |
| Player.BufferWindow | Player.cpp:140-146 | Counting from a press, the buffer is still armed after n further countdown steps iff n ≤ 6. |
| Player.ChooseJump | Player.cpp:149-167 | With the buffer armed, a grounded player always ground-jumps. In the air, a wall jump needs contact with that wall and a held direction that does not push into it. With the buffer empty nothing happens. |
| Player.NewFacing | Player.cpp:169-182 | Facing changes only toward the held direction on the ground, or toward clear horizontal motion (above 0.01) in the air away from walls. |
| Player.Update | Player.cpp:25-185 | One tick keeps alive and the respawn point. Grounded implies no wall contact and no vertical speed. An armed buffer on the ground jumps with speed 0.45, spends the buffer and keeps the horizontal result and its wall contact. A tick with no jump takes velocity, ground and wall contact from the Y-then-X resolution and keeps the counted-down buffer, armed or not. Facing follows the facing rule, with the player treated as airborne on a ground jump. The position is the Y-then-X resolution. Wall contact implies no horizontal speed. |
| Player.AirborneTicksCarryBuffer | Player.cpp:140-167 | A press followed by airborne ticks without presses leaves, after k further ticks, exactly the buffer the countdown gives after k steps. |
| Player.BufferedJumpWindow | Player.cpp:140-167 | Through whole ticks: after a press and airborne ticks with no further press, landing on tick n jumps (speed 0.45, airborne, buffer spent) if n ≤ 6, and on tick 7 or later just lands. |
| Player.WallJumpUnreachable | Player.cpp:93-166 | As written no tick ever takes a wall jump: the jump chosen is only ever none or a ground jump. |
| Player.SetPosition | Player.cpp:263-275 | Moves the player, clears velocity, contact and buffer, and records the position as the respawn point. |
| Player.Initialize | Player.cpp:11-23 | The player starts alive at (2, 9), at rest, airborne, with no wall contact and an empty jump buffer, and that point is the respawn point. |
| Player.Die | Player.cpp:217-220 | Dying clears alive and velocity and keeps everything else: position, respawn point, ground and wall contact, jump buffer and facing. |
| Player.Reset | Player.cpp:222-225 | Reset revives the player at the respawn point with motion cleared. |
| Player.ResetUndoesDeath | Player.cpp:217-225 | Reset after Die is the same as Reset. Reset is idempotent. After SetPosition(q), a death and a reset land at q. |
| Player.IsExiting | Player.cpp:229-261 | Exiting iff the centre is past the map width (20 columns when the map has none) and above 7.7 or below 0.7; an exiting player is past the last column. |
| Player.ExitingIsOutsideGrid | Player.cpp:229-261 | On a non-empty map an exiting player is outside the world rectangle, where collision reports solid. |
| Player.LandingExample | Player.cpp:65-70 | Scenario: falling 0.035 onto a floor lands the player exactly on the tile's top with no vertical speed. |
| Trap.SpawnX | Trap.cpp:37-42 | The off-screen waiting point is left of 0 for a left trap and beyond the map width for a right trap. |
| Trap.Reset | Trap.cpp:31-43 | Reset returns to Idle off-screen, with the timer and the zone memory cleared and the configuration kept. |
| Trap.Initialize | Trap.cpp:10-27 | A new trap stores its height, side and margin and starts Idle off-screen on its side, with the timer and the zone memory cleared. |
| Trap.TargetX | Trap.cpp:76-95 | A left trap aims at the player's x minus margin and half-size, raised to the wall's half-width when it would fall below it. A right trap aims at the player's x plus them, lowered to the map width minus the half-width when it would pass it. A short trap aims at the fixed peek point: half-width plus margin from the left edge, or the same distance in from the right edge. |
| Trap.ShortTargetIgnoresPlayer | Trap.cpp:77-90 | A short trap's target does not depend on the player. |
| Trap.Arm | Trap.cpp:72-98 | Firing starts the wall off-screen on its side, sets the target and remembers the start as the return point. |
| Trap.Advance | Trap.cpp:114-129 | A charge step moves exactly 0.2 toward the target and never passes it. It arrives iff that step reaches or passes the target, and then it snaps onto the target and waits 2 seconds. |
| Trap.Retreat | Trap.cpp:161-176 | A retreat step moves exactly 0.2 back toward the return point and never passes it. It finishes iff that step reaches or passes the return point, and then it snaps onto it. |
| Trap.Touches | Trap.cpp:196-214 | The wall touches the player iff their centres are at most 0.2 + 0.35 apart on each axis. |
| Trap.Strike | Trap.cpp:131-134 | A touching wall kills the player and turns back to Returning in the same tick. |
| Trap.Update | Trap.cpp:46-182 | A finished trap, or a dead player, changes nothing. A kill happens only while attacking or waiting, and it ends in Returning. The zone flag tracks the band. An idle trap fires iff the player has just entered the band; when it does not fire, only the zone flag changes. Attacking advances then strikes; Waiting counts the timer down by 1/60, turns to Returning at zero or below, then strikes; Returning retreats and never kills. |
| Trap.PhasesOnlyAdvance | Trap.cpp:66-181 | Without Reset, phases only move forward through Idle, Attacking, Waiting, Returning, Finished; Returning never goes back to Idle. |
| Trap.ChargeNeverOvershoots | Trap.cpp:114-129 | While attacking, the wall never passes its target, and arriving starts a wait of exactly 2 seconds. |
| Trap.WaitLasts120Ticks | Trap.cpp:149-152 | A clear wait stays in Waiting for 119 ticks, with the timer dropping by 1/60 each tick, and turns to Returning on the 120th tick. |
| Trap.FinishedIsAbsorbing | Trap.cpp:47-50 | Any number of updates leaves a finished trap unchanged. |
| Trap.StayingInBandNeverFires | Trap.cpp:62-72 | A player who stays in the band never re-fires an idle trap. |
| FallingBlock.CodesDistinct | FallingBlock.h:9-17 | No two block types share a map code. |
| FallingBlock.Initialize | FallingBlock.cpp:9-25 | A new block is idle at its spawn point with no claim. |
| FallingBlock.Reset | FallingBlock.cpp:27-43 | A recorded claim is handed back by writing the type code into that cell, with every other cell unchanged. The block returns to its spawn point, idle and with no claim. |
| FallingBlock.Touches | FallingBlock.cpp:178-197 | The block touches the player iff their centres are at most 0.2 + 0.35 apart on each axis. |
| FallingBlock.SnapY | FallingBlock.cpp:99 | The snapped height rests the block's bottom on the top edge of the tile holding the foot, less than one tile above the foot. |
| FallingBlock.Fall | FallingBlock.cpp:81-115 | A fall step drops 0.2 and kills on overlap without stopping. Finding ground under the foot, it snaps, lands, records the landing height and claims the cell it occupies, when that cell is on the grid. |
| FallingBlock.Rest | FallingBlock.cpp:117-142 | Only a spike with the player on top leaves Landed. It starts rising, writes its code into the claimed cell and drops the claim. |
| FallingBlock.Rise | FallingBlock.cpp:144-161 | A rise step climbs 0.2 and kills on overlap. At the spawn height it snaps there and falls again, so it never ends above the spawn height. |
| FallingBlock.Update | FallingBlock.cpp:45-166 | A dead player freezes the block. Kills happen only while falling or rising. An idle block starts falling iff the player is just under it and far enough below. With a live player a falling block takes a fall step, a landed one rests and a rising one takes a rise step. The grid changes only on landing or on a spike's rise. The grid stays well formed. |
| FallingBlock.InitializeEstablishesInv | FallingBlock.cpp:20-24 | A new block's (empty) claim record agrees with any well-formed grid. |
| FallingBlock.UpdatePreservesInv | FallingBlock.cpp:102-138 | Each update keeps the claim record consistent: a claim exists only while landed, names the on-grid cell the block occupies, and that cell holds 1. |
| FallingBlock.ResetReleasesClaim | FallingBlock.cpp:27-43 | Reset after a claim leaves the claimed cell passable and the record consistent. |
| FallingBlock.ClaimedBlockIsSolid | FallingBlock.cpp:102-111 | While a claim is held, every point of the claimed cell, including the block's centre, collides. |
| FallingBlock.LandingRestsOnGround | FallingBlock.cpp:91-100 | On landing, the foot was on a solid point. The block occupies the tile directly above it and moved up less than one tile. |
| FallingBlock.RisingReleasesClaim | FallingBlock.cpp:121-139 | A spike that starts rising writes 4 into its claimed cell, making it passable, and changes no other cell. |
| FallingBlock.LandedNonSpikeStays | FallingBlock.cpp:117-142 | A landed block of any type but Spike never moves, never kills and never changes the grid again. |
| FallingBlock.RunPreservesInv | FallingBlock.cpp:45-166 | The claim record stays consistent over any number of updates. |
| PlayerBullet.Initialize | PlayerBullet.cpp:4-11 | A new bullet has the given position and speed and 2 seconds of life. |
| PlayerBullet.Move | PlayerBullet.cpp:15-18 | A step moves x by the speed, keeps y, and spends 1/60 of a second. |
| PlayerBullet.Update | PlayerBullet.cpp:13-33 | An update asks for removal iff the life is spent or the new position collides. Expiry is reported before a wall hit. |
| PlayerBullet.FlyClosedForm | PlayerBullet.cpp:15-18 | After n steps the bullet is at x + n·vx at the same height, with n/60 seconds spent. |
| PlayerBullet.ExpiresOnUpdate120 | PlayerBullet.cpp:18-21 | A fresh bullet expires on its 120th update and not before. |
| PlayerBullet.KeptBulletIsInOpenCell | PlayerBullet.cpp:23-32 | A bullet that stays is inside the map, in a cell that is not 1. |
| Game.Struck | Player.cpp:217-220 | A hazard's kill leaves the player dead where they stand; no kill leaves them unchanged. |
| Game.Tick | FallingBlock.cpp:45-49 | The tick order: the trap updates against the moved player, and the block against that player after the trap's verdict. The world keeps the trap's and the block's results and their grid. The player stays alive iff they were alive after moving and neither hazard hit them; a hit player is the moved player after Die (velocity zeroed, everything else kept), and a player not hit is exactly the moved player. A dead player's tick leaves trap, block and grid alone. The grid changes only when the block lands or a spike starts rising. |
| Game.Start | Player.cpp:11-23 | A fresh level has a live player, an idle trap and an idle block. |
| Game.StartEstablishesInv | FallingBlock.cpp:20-24 | A fresh level satisfies the world invariant. |
| Game.TickPreservesInv | FallingBlock.cpp:102-138 | Every tick keeps the grid well formed and the block's claim consistent with it. |
| Game.ClaimSeenAsSolid | FallingBlock.cpp:102-111 | After a tick, every point of the cell the block claims collides, so the player's probes on the next tick see ground there. |
| Game.LandingChangesGrid | FallingBlock.cpp:95-111 | A block that lands during a tick is solid in the grid that tick returns. |
| Game.TrapKillFreezesBlock | Trap.cpp:131-134 | When the trap kills during a tick, the block and the grid are left alone for the rest of that tick. |
| Game.TickTouchesOnlyClaims | FallingBlock.cpp:107 | A tick changes no cell other than the block's claimed cells. |
| Game.DeadPlayerFreezesHazards | Trap.cpp:52-55 | Once the player is dead, any number of ticks leaves trap, block and grid unchanged and the player dead. |

## Left out

- Rendering, model and texture loading, ImGui panels, destructors and the camera (`Draw`, `ImGui_Draw`, `Model::Create`, `Camera.cpp`): they draw, allocate or free, and hold no game logic.
- `main.cpp`: the window loop, device set-up and `Input` singleton. The input snapshot (A held, D held, Space just pressed) is a parameter of `Player.Update`.
- Opening the map file and its `assert`: `MapChip.Load` takes the file's lines as a sequence.
- `std::stoi` corner cases: leading signs, spaces, trailing garbage after digits and out-of-range values. A field parses only if it is all digits; anything else is an error.
- IEEE-754 single-precision rounding: all arithmetic is exact `real`, so claims such as "120 ticks" hold in exact arithmetic only.
- The model transform and its rotation angles: the player's yaw of ±π/2 is the `Facing` value. The scale set in `Initialize` is not modelled.
- `BlockState::MovingSide`, `kSideSpeed_`, `moveDirX_` and `isCeiling_`: the update code never uses them. Types 6–10 therefore behave like type 3 in this code, and the model does the same.
- `kTriggerDistanceY_` is not part of this model: its declaration is missing from the block's header. `FallingBlock.Update` takes it as a parameter `trigger`.
- `MapChip::GetGridCoordinates` and `MapChip::SetGridCell` are called by the falling block, but MapChip.cpp and MapChip.h do not define them. `MapChip.GetGridCoordinates` and `MapChip.SetGridCell` specify them from the way the falling block uses them: the same cell mapping as collision with -1 off the grid, and a bounds-checked write.
- A null map pointer in `Player::IsExiting`: the model always has a grid.
- `player->GetHalfSize()`, which the trap and the block call, is not defined in Player.cpp or Player.h. The model uses the player's own half-size constant, 0.2 (Player.cpp:35), in its place.
- `Player.Update`, `MapChip.CheckCollision` and the block and bullet operations that call them require every row to be at least as wide as row 0. The source indexes any row with a column bound taken from row 0, which is undefined behaviour on a shorter row.
- Several traps and blocks at once: `Game` holds one of each. Each one reads and writes the shared grid in the same way, and the order of the tick is player, then trap, then block.
- The bullet's spawning by the player and the bullet list: only the bullet's own `Initialize` and `Update` are modelled.

=== FILE: common.dfy ===
/** Failure-compatible wrappers shared by the level loader and the hazards. */
module Common {

  /** A value that may be absent; used for grid coordinates that may fall outside the level. */
  datatype Option<T> = None | Some(value: T)

  /** The outcome of parsing: a value, or the reason the input was rejected. */
  datatype Result<T> = Ok(value: T) | Err(message: string)
}

=== FILE: fallingblock.dfy ===
/**
  The falling block: it waits at its spawn point, drops when the player passes
  beneath it, lands on solid ground and claims its landing cell in the shared grid
  as solid so the player can stand on it. A spike block releases the cell and rises
  back to its spawn height when the player steps onto it, then falls again.
*/
module FallingBlock {
  import opened Common
  import opened Geometry
  import opened MapChip
  import Player

  const FallSpeed: real := 0.2
  const RiseSpeed: real := 0.2
  /** The block is one tile wide and tall. */
  const HalfSize: real := BlockSize / 2.0
  /** The ground probe sits this far below the block's bottom edge. */
  const FootInset: real := 0.001

  /** The kinds of block, with the map codes they are placed from. */
  datatype BlockType = FallOnly | Spike | RiseOnTop | SideAttack | FallOnTop | StaticHazard | RiseThenFall
  {
    function Code(): (c: int)
      ensures 3 <= c <= 10 && c != 5
      ensures c != Solid
    {
      match this
      case FallOnly => 3
      case Spike => 4
      case RiseOnTop => 6
      case SideAttack => 7
      case FallOnTop => 8
      case StaticHazard => 9
      case RiseThenFall => 10
    }
  }

  /** No two block types share a map code. */
  lemma CodesDistinct(k: BlockType, j: BlockType)
    ensures k.Code() == j.Code() ==> k == j
  {
  }

  datatype Phase = Idle | Falling | Landed | Rising

  /**
    `claim` is the grid cell this block turned solid on landing (the source's pair of
    -1 sentinels is `None`); `landedY` is the height it last came to rest at.
  */
  datatype Block = Block(kind: BlockType, spawn: Vec2, pos: Vec2, phase: Phase, landedY: real, claim: Option<Cell>)

  /** The result of one update: the block, the shared grid, and whether the player was hit. */
  datatype BlockStep = BlockStep(block: Block, grid: Grid, killed: bool)

  function Initialize(spawn: Vec2, kind: BlockType): (b: Block)
    ensures b.kind == kind && b.spawn == spawn && b.pos == spawn
    ensures b.phase == Idle && b.landedY == spawn.y && b.claim.None?
  {
    Block(kind, spawn, spawn, Idle, spawn.y, None)
  }

  /**
    Back to spawn and Idle with no claim. A recorded claim is first handed back by
    writing the type code into that cell; every other cell keeps its value.
  */
  function Reset(b: Block, g: Grid): (r: (Block, Grid))
    ensures r.0 == Initialize(b.spawn, b.kind)
    ensures |r.1| == |g| && forall i :: 0 <= i < |g| ==> |r.1[i]| == |g[i]|
    ensures forall i, j :: 0 <= i < |g| && 0 <= j < |g[i]| && (b.claim.None? || Cell(j, i) != b.claim.value) ==>
              r.1[i][j] == g[i][j]
    ensures b.claim.Some? && InGrid(g, b.claim.value) && RowsCoverFirst(g) ==>
              r.1[b.claim.value.row][b.claim.value.col] == b.kind.Code()
    ensures RowsCoverFirst(g) ==> RowsCoverFirst(r.1)
  {
    var g' := if b.claim.Some? then SetGridCell(g, b.claim.value, b.kind.Code()) else g;
    (Initialize(b.spawn, b.kind), g')
  }

  /** Closed box overlap between the player and the block (touching counts). */
  function Touches(b: Block, p: Player.PlayerState): (touching: bool)
    ensures touching <==> Abs(p.pos.x - b.pos.x) <= Player.HalfSize + HalfSize
                          && Abs(p.pos.y - b.pos.y) <= Player.HalfSize + HalfSize
  {
    BoxesTouchByDistance(p.pos, Player.HalfSize, b.pos, HalfSize);
    BoxesTouch(p.pos, Player.HalfSize, b.pos, HalfSize)
  }

  /** The point just below the block's bottom edge that probes for ground. */
  function Foot(pos: Vec2): Vec2
  {
    Vec2(pos.x, pos.y - HalfSize - FootInset)
  }

  /** The height that rests the block's bottom edge on top of the tile holding `footY`. */
  function SnapY(footY: real): (y: real)
    ensures y - HalfSize == (TileIndex(footY) + 1) as real * BlockSize
    ensures footY < y - HalfSize <= footY + BlockSize
  {
    (TileIndex(footY) + 1) as real * BlockSize + HalfSize
  }

  /** The player stands right under an idle block, far enough below it. */
  predicate TriggersFall(b: Block, p: Player.PlayerState, trigger: real)
  {
    Abs(p.pos.x - b.pos.x) < HalfSize * 0.5 && p.pos.y - b.pos.y < -trigger
  }

  /** The player stands on top of a landed block, within the trigger height. */
  predicate OnTop(b: Block, p: Player.PlayerState, trigger: real)
  {
    Abs(p.pos.x - b.pos.x) < HalfSize && b.pos.y < p.pos.y < b.pos.y + trigger
  }

  /**
    One tick of falling: drop by FallSpeed, hit the player at the lowered position,
    and on finding ground under the foot snap onto it, land, and claim the cell the
    block now occupies, when that cell is on the grid.
  */
  function Fall(b: Block, p: Player.PlayerState, g: Grid): (r: BlockStep)
    requires RowsCoverFirst(g)
    ensures r.killed <==> Touches(b.(pos := Vec2(b.pos.x, b.pos.y - FallSpeed)), p)
    ensures r.block.kind == b.kind && r.block.spawn == b.spawn && r.block.pos.x == b.pos.x
    ensures var low := b.pos.y - FallSpeed;
            if CheckCollision(g, Foot(Vec2(b.pos.x, low))) then
              r.block.phase == Landed && r.block.landedY == r.block.pos.y
              && r.block.pos.y == SnapY(low - HalfSize - FootInset)
              && (GetGridCoordinates(g, r.block.pos).Some? ==>
                    r.block.claim == GetGridCoordinates(g, r.block.pos)
                    && r.grid == SetGridCell(g, r.block.claim.value, Solid))
              && (GetGridCoordinates(g, r.block.pos).None? ==> r.block.claim == b.claim && r.grid == g)
            else
              r.block == b.(pos := Vec2(b.pos.x, low)) && r.grid == g
  {
    var moved := b.(pos := Vec2(b.pos.x, b.pos.y - FallSpeed));
    var hit := Touches(moved, p);
    var foot := Foot(moved.pos);
    if CheckCollision(g, foot) then
      var y := SnapY(foot.y);
      var landed := moved.(pos := Vec2(moved.pos.x, y), phase := Landed, landedY := y);
      match GetGridCoordinates(g, landed.pos)
      case Some(c) => BlockStep(landed.(claim := Some(c)), SetGridCell(g, c, Solid), hit)
      case None => BlockStep(landed, g, hit)
    else
      BlockStep(moved, g, hit)
  }

  /**
    The landed state: a spike block with the player on top starts rising and writes
    its type code back into its claimed cell; every other case stays put.
  */
  function Rest(b: Block, p: Player.PlayerState, g: Grid, trigger: real): (r: BlockStep)
    requires b.phase == Landed
    ensures !r.killed
    ensures r.block.pos == b.pos && r.block.kind == b.kind && r.block.spawn == b.spawn && r.block.landedY == b.landedY
    ensures r.block.phase == Rising <==> b.kind == Spike && OnTop(b, p, trigger)
    ensures r.block.phase != Rising ==> r.block == b && r.grid == g
    ensures r.block.phase == Rising ==> r.block.claim.None?
    ensures r.block.phase == Rising && b.claim.Some? ==> r.grid == SetGridCell(g, b.claim.value, Spike.Code())
    ensures r.block.phase == Rising && b.claim.None? ==> r.grid == g
  {
    if b.kind == Spike && OnTop(b, p, trigger) then
      var risen := b.(phase := Rising, claim := None);
      match b.claim
      case Some(c) => BlockStep(risen, SetGridCell(g, c, b.kind.Code()), false)
      case None => BlockStep(risen, g, false)
    else
      BlockStep(b, g, false)
  }

  /**
    One tick of rising: climb by RiseSpeed, hit the player at the raised position, and
    on reaching the spawn height snap onto it and fall again.
  */
  function Rise(b: Block, p: Player.PlayerState, g: Grid): (r: BlockStep)
    requires b.phase == Rising
    ensures r.killed <==> Touches(b.(pos := Vec2(b.pos.x, b.pos.y + RiseSpeed)), p)
    ensures r.grid == g && r.block.pos.x == b.pos.x && r.block.pos.y <= b.spawn.y
    ensures r.block.phase == Falling <==> b.pos.y + RiseSpeed >= b.spawn.y
    ensures r.block.phase == Falling ==> r.block.pos.y == b.spawn.y
    ensures r.block.phase != Falling ==> r.block.phase == Rising && r.block.pos.y == b.pos.y + RiseSpeed
    ensures r.block.kind == b.kind && r.block.spawn == b.spawn && r.block.claim == b.claim && r.block.landedY == b.landedY
  {
    var up := b.(pos := Vec2(b.pos.x, b.pos.y + RiseSpeed));
    var hit := Touches(up, p);
    if up.pos.y >= b.spawn.y then BlockStep(up.(pos := Vec2(up.pos.x, b.spawn.y), phase := Falling), g, hit)
    else BlockStep(up, g, hit)
  }

  /** One FallingBlock::Update with the trigger height as a parameter; a dead player freezes the block. */
  function Update(b: Block, p: Player.PlayerState, g: Grid, trigger: real): (r: BlockStep)
    requires RowsCoverFirst(g)
    ensures !p.alive ==> r == BlockStep(b, g, false)
    ensures r.block.kind == b.kind && r.block.spawn == b.spawn && r.block.pos.x == b.pos.x
    ensures r.killed ==> p.alive && (b.phase == Falling || b.phase == Rising)
    ensures b.phase == Idle ==> r.grid == g && r.block == (if p.alive && TriggersFall(b, p, trigger) then b.(phase := Falling) else b)
    ensures b.phase != Rising && r.block.phase == Rising ==> b.kind == Spike && b.phase == Landed
    ensures b.phase == Rising ==> r.block.pos.y <= b.spawn.y || !p.alive
    ensures RowsCoverFirst(r.grid) && |r.grid| == |g| && ColCount(r.grid) == ColCount(g)
    ensures r.grid != g ==> p.alive && ((b.phase == Falling && r.block.phase == Landed) || (b.phase == Landed && r.block.phase == Rising))
    ensures p.alive && b.phase == Falling ==> r == Fall(b, p, g)
    ensures p.alive && b.phase == Landed ==> r == Rest(b, p, g, trigger)
    ensures p.alive && b.phase == Rising ==> r == Rise(b, p, g)
  {
    if !p.alive then BlockStep(b, g, false)
    else
      match b.phase
      case Idle =>
        BlockStep(if TriggersFall(b, p, trigger) then b.(phase := Falling) else b, g, false)
      case Falling => Fall(b, p, g)
      case Landed => Rest(b, p, g, trigger)
      case Rising => Rise(b, p, g)
  }

  /**
    The claim record is consistent with the grid: a claim exists only while landed,
    names the on-grid cell the block occupies, and that cell holds the solid code.
  */
  predicate Inv(b: Block, g: Grid)
  {
    RowsCoverFirst(g)
    && (b.claim.Some? ==>
          b.phase == Landed && InGrid(g, b.claim.value) && b.claim.value == CellOf(g, b.pos)
          && g[b.claim.value.row][b.claim.value.col] == Solid)
  }

  /** A fresh block holds no claim, so it agrees with any well-formed grid. */
  lemma InitializeEstablishesInv(spawn: Vec2, kind: BlockType, g: Grid)
    requires RowsCoverFirst(g)
    ensures Inv(Initialize(spawn, kind), g)
  {
  }

  /** Every update keeps the claim record consistent with the grid it returns. */
  lemma UpdatePreservesInv(b: Block, p: Player.PlayerState, g: Grid, trigger: real)
    requires Inv(b, g)
    ensures Inv(Update(b, p, g, trigger).block, Update(b, p, g, trigger).grid)
  {
    var r := Update(b, p, g, trigger);
    if p.alive && b.phase == Falling && r.block.claim.Some? {
      var c := r.block.claim.value;
      assert GetGridCoordinates(g, r.block.pos) == Some(c);
      assert r.grid == SetGridCell(g, c, Solid);
    }
  }

  /** Reset hands the claimed cell back as a passable type code and leaves a consistent state. */
  lemma ResetReleasesClaim(b: Block, g: Grid, q: Vec2)
    requires Inv(b, g) && b.claim.Some?
    requires CellOf(g, q) == b.claim.value
    ensures Inv(Reset(b, g).0, Reset(b, g).1)
    ensures !CheckCollision(Reset(b, g).1, q)
  {
  }

  /** While the block stands on its claim, the map reports its own position as solid. */
  lemma ClaimedBlockIsSolid(b: Block, g: Grid, q: Vec2)
    requires Inv(b, g) && b.claim.Some?
    requires CellOf(g, q) == b.claim.value
    ensures CheckCollision(g, q)
    ensures CheckCollision(g, b.pos)
  {
  }

  /**
    A landing rests the block on the tile its foot found solid: the block's bottom is
    that tile's top edge, the block occupies the tile directly above it, and it moved
    up by less than one tile from where the fall had carried it.
  */
  lemma LandingRestsOnGround(b: Block, p: Player.PlayerState, g: Grid, trigger: real)
    requires RowsCoverFirst(g) && p.alive && b.phase == Falling
    requires Update(b, p, g, trigger).block.phase == Landed
    ensures var low := b.pos.y - FallSpeed;
            var y := Update(b, p, g, trigger).block.pos.y;
            CheckCollision(g, Foot(Vec2(b.pos.x, low)))
            && TileIndex(y) == TileIndex(Foot(Vec2(b.pos.x, low)).y) + 1
            && CellOf(g, Vec2(b.pos.x, y)).row == CellOf(g, Foot(Vec2(b.pos.x, low))).row - 1
            && low - FootInset < y <= low - FootInset + BlockSize
  {
    var low := b.pos.y - FallSpeed;
    var foot := Foot(Vec2(b.pos.x, low));
    var y := Update(b, p, g, trigger).block.pos.y;
    var k := TileIndex(foot.y);
    assert y == (k + 1) as real * BlockSize + HalfSize;
    TileIndexUnique(y, k + 1);
  }

  /**
    A spike block that starts rising hands its cell back: the cell holds the spike's
    code, which the map treats as passable, and no other cell changes.
  */
  lemma RisingReleasesClaim(b: Block, p: Player.PlayerState, g: Grid, trigger: real, q: Vec2)
    requires Inv(b, g) && p.alive && b.phase == Landed && b.claim.Some?
    requires b.kind == Spike && OnTop(b, p, trigger)
    requires CellOf(g, q) == b.claim.value
    ensures var r := Update(b, p, g, trigger);
            r.block.phase == Rising && r.block.claim.None?
            && r.grid[b.claim.value.row][b.claim.value.col] == Spike.Code()
            && !CheckCollision(r.grid, q)
            && forall i, j :: 0 <= i < |g| && 0 <= j < |g[i]| && Cell(j, i) != b.claim.value ==> r.grid[i][j] == g[i][j]
  {
  }

  /** `n` updates against a player that does not move, threading the shared grid. */
  function Run(b: Block, p: Player.PlayerState, g: Grid, trigger: real, n: nat): (r: BlockStep)
    requires RowsCoverFirst(g)
    ensures RowsCoverFirst(r.grid)
  {
    if n == 0 then BlockStep(b, g, false)
    else
      var prev := Run(b, p, g, trigger, n - 1);
      Update(prev.block, p, prev.grid, trigger)
  }

  /** A landed block of any type but Spike never moves again and never changes the grid. */
  lemma {:induction false} LandedNonSpikeStays(b: Block, p: Player.PlayerState, g: Grid, trigger: real, n: nat)
    requires RowsCoverFirst(g) && b.phase == Landed && b.kind != Spike
    ensures Run(b, p, g, trigger, n).block == b && Run(b, p, g, trigger, n).grid == g
    ensures !Run(b, p, g, trigger, n).killed
  {
    if n > 0 {
      LandedNonSpikeStays(b, p, g, trigger, n - 1);
    }
  }

  /** The claim record stays consistent with the grid over any number of updates. */
  lemma {:induction false} RunPreservesInv(b: Block, p: Player.PlayerState, g: Grid, trigger: real, n: nat)
    requires Inv(b, g)
    ensures Inv(Run(b, p, g, trigger, n).block, Run(b, p, g, trigger, n).grid)
  {
    if n > 0 {
      RunPreservesInv(b, p, g, trigger, n - 1);
      var prev := Run(b, p, g, trigger, n - 1);
      UpdatePreservesInv(prev.block, p, prev.grid, trigger);
    }
  }
}

=== FILE: game.dfy ===
/**
  One simulation tick of a level with a player, one ambush trap and one falling
  block sharing one grid: the player moves first, then the trap and then the block
  act on the player's new state, and either hazard may kill the player.
*/
module Game {
  import opened Geometry
  import opened MapChip
  import Player
  import Trap
  import FallingBlock

  datatype World = World(grid: Grid, player: Player.PlayerState, trap: Trap.TrapState, block: FallingBlock.Block)

  /** The grid is well formed and the block's claim record agrees with it. */
  predicate WorldInv(w: World)
  {
    FallingBlock.Inv(w.block, w.grid)
  }

  /** Applies a hazard's verdict to the player. */
  function Struck(p: Player.PlayerState, killed: bool): (r: Player.PlayerState)
    ensures killed ==> !r.alive && r.pos == p.pos
    ensures !killed ==> r == p
  {
    if killed then Player.Die(p) else p
  }

  /** One tick: Player::Update, then Trap::Update, then FallingBlock::Update. */
  function Tick(w: World, input: Player.Input, trigger: real): (r: World)
    requires RowsCoverFirst(w.grid)
    ensures RowsCoverFirst(r.grid) && |r.grid| == |w.grid|
    ensures r.player.pos == Player.Update(w.grid, w.player, input).pos
    ensures r.player.alive ==> w.player.alive
    ensures !w.player.alive ==> r.trap == w.trap && r.block == w.block && r.grid == w.grid && !r.player.alive
    ensures r.grid != w.grid ==>
              (w.block.phase == FallingBlock.Falling && r.block.phase == FallingBlock.Landed)
              || (w.block.phase == FallingBlock.Landed && r.block.phase == FallingBlock.Rising)
    ensures
      var p1 := Player.Update(w.grid, w.player, input);
      var ts := Trap.Update(w.trap, p1);
      var bs := FallingBlock.Update(w.block, Struck(p1, ts.killed), w.grid, trigger);
      && r.trap == ts.trap && r.block == bs.block && r.grid == bs.grid
      && (r.player.alive <==> p1.alive && !ts.killed && !bs.killed)
      && r.player == (if ts.killed || bs.killed then Player.Die(p1) else p1)
  {
    var p1 := Player.Update(w.grid, w.player, input);
    var ts := Trap.Update(w.trap, p1);
    var p2 := Struck(p1, ts.killed);
    var bs := FallingBlock.Update(w.block, p2, w.grid, trigger);
    var p3 := Struck(p2, bs.killed);
    World(bs.grid, p3, ts.trap, bs.block)
  }

  /** A fresh level: the player at its start, the trap idle off-screen, the block at its spawn. */
  function Start(g: Grid, trap: Trap.TrapState, spawn: Vec2, kind: FallingBlock.BlockType): (w: World)
    ensures w.grid == g && w.player.alive && w.trap.phase == Trap.Idle && w.block.phase == FallingBlock.Idle
  {
    World(g, Player.Initialize(), Trap.Reset(trap), FallingBlock.Initialize(spawn, kind))
  }

  /** A fresh level on a well-formed grid satisfies the world invariant. */
  lemma StartEstablishesInv(g: Grid, trap: Trap.TrapState, spawn: Vec2, kind: FallingBlock.BlockType)
    requires RowsCoverFirst(g)
    ensures WorldInv(Start(g, trap, spawn, kind))
  {
    FallingBlock.InitializeEstablishesInv(spawn, kind, g);
  }

  /** Every tick keeps the grid well formed and the block's claim consistent with it. */
  lemma TickPreservesInv(w: World, input: Player.Input, trigger: real)
    requires WorldInv(w)
    ensures WorldInv(Tick(w, input, trigger))
  {
    var p1 := Player.Update(w.grid, w.player, input);
    var ts := Trap.Update(w.trap, p1);
    var p2 := Struck(p1, ts.killed);
    FallingBlock.UpdatePreservesInv(w.block, p2, w.grid, trigger);
  }

  /**
    The cell a landed block claimed is solid for the next collision query: every point
    in it collides, so the player's probes on the following tick treat it as ground.
  */
  lemma ClaimSeenAsSolid(w: World, input: Player.Input, trigger: real, q: Vec2)
    requires WorldInv(w)
    requires var r := Tick(w, input, trigger); r.block.claim.Some? && CellOf(r.grid, q) == r.block.claim.value
    ensures CheckCollision(Tick(w, input, trigger).grid, q)
  {
    TickPreservesInv(w, input, trigger);
    var r := Tick(w, input, trigger);
    FallingBlock.ClaimedBlockIsSolid(r.block, r.grid, q);
  }

  /**
    A landing during this tick shows up in the grid at once: the block's new position
    collides on the grid the tick returns.
  */
  lemma LandingChangesGrid(w: World, input: Player.Input, trigger: real)
    requires WorldInv(w) && w.block.phase == FallingBlock.Falling
    requires Tick(w, input, trigger).block.claim.Some?
    ensures CheckCollision(Tick(w, input, trigger).grid, Tick(w, input, trigger).block.pos)
  {
    TickPreservesInv(w, input, trigger);
    var r := Tick(w, input, trigger);
    FallingBlock.ClaimedBlockIsSolid(r.block, r.grid, r.block.pos);
  }

  /** A trap kill earlier in the tick leaves the block and the grid untouched for that tick. */
  lemma TrapKillFreezesBlock(w: World, input: Player.Input, trigger: real)
    requires RowsCoverFirst(w.grid)
    requires Trap.Update(w.trap, Player.Update(w.grid, w.player, input)).killed
    ensures Tick(w, input, trigger).block == w.block && Tick(w, input, trigger).grid == w.grid
    ensures !Tick(w, input, trigger).player.alive && Tick(w, input, trigger).trap.phase == Trap.Returning
  {
  }

  /** Only the block's claimed cell can change in a tick; every other cell keeps its code. */
  lemma TickTouchesOnlyClaims(w: World, input: Player.Input, trigger: real)
    requires WorldInv(w)
    ensures var r := Tick(w, input, trigger);
            forall i, j :: 0 <= i < |w.grid| && 0 <= j < |w.grid[i]|
                           && (r.block.claim.None? || Cell(j, i) != r.block.claim.value)
                           && (w.block.claim.None? || Cell(j, i) != w.block.claim.value) ==>
                             r.grid[i][j] == w.grid[i][j]
  {
  }

  /** A dead player's world is frozen apart from the player's own physics. */
  lemma {:induction false} DeadPlayerFreezesHazards(w: World, inputs: seq<Player.Input>, trigger: real)
    requires RowsCoverFirst(w.grid) && !w.player.alive
    ensures RunTicks(w, inputs, trigger).grid == w.grid
    ensures RunTicks(w, inputs, trigger).trap == w.trap && RunTicks(w, inputs, trigger).block == w.block
    ensures !RunTicks(w, inputs, trigger).player.alive
    decreases |inputs|
  {
    if |inputs| > 0 {
      DeadPlayerFreezesHazards(Tick(w, inputs[0], trigger), inputs[1..], trigger);
    }
  }

  /** Ticks in order over a sequence of input snapshots. */
  function RunTicks(w: World, inputs: seq<Player.Input>, trigger: real): (r: World)
    requires RowsCoverFirst(w.grid)
    ensures RowsCoverFirst(r.grid)
    decreases |inputs|
  {
    if |inputs| == 0 then w else RunTicks(Tick(w, inputs[0], trigger), inputs[1..], trigger)
  }
}

=== FILE: geometry.dfy ===
/** World geometry shared by every entity: positions, the tile size and box overlap. */
module Geometry {

  /** World units per tile (MapChip::kBlockSize). */
  const BlockSize: real := 0.7

  /** A position in world units; the depth coordinate of the source is always 0 and is dropped. */
  datatype Vec2 = Vec2(x: real, y: real)

  function Abs(v: real): (r: real)
    ensures r >= 0.0 && (r == v || r == -v)
  {
    if v < 0.0 then -v else v
  }

  /** The index of the tile containing world coordinate `v`, i.e. floor(v / BlockSize). */
  function TileIndex(v: real): (k: int)
    ensures k as real * BlockSize <= v < (k + 1) as real * BlockSize
  {
    (v / BlockSize).Floor
  }

  /** A coordinate lies in exactly one tile. */
  lemma TileIndexUnique(v: real, k: int)
    requires k as real * BlockSize <= v < (k + 1) as real * BlockSize
    ensures TileIndex(v) == k
  {
  }

  /**
    Closed axis-aligned overlap of two squares given by centre and half-extent: they are
    apart only when one lies strictly beyond an edge of the other, so touching counts.
  */
  predicate BoxesTouch(a: Vec2, ha: real, b: Vec2, hb: real)
  {
    !(a.x - ha > b.x + hb || a.x + ha < b.x - hb || a.y + ha < b.y - hb || a.y - ha > b.y + hb)
  }

  /** The edge test agrees with the centre-distance formulation and is symmetric. */
  lemma BoxesTouchByDistance(a: Vec2, ha: real, b: Vec2, hb: real)
    ensures BoxesTouch(a, ha, b, hb) <==> Abs(a.x - b.x) <= ha + hb && Abs(a.y - b.y) <= ha + hb
    ensures BoxesTouch(a, ha, b, hb) <==> BoxesTouch(b, hb, a, ha)
  {
  }
}

=== FILE: mapchip.dfy ===
/**
  The tile grid (MapChip): parsing of the level's comma-separated rows, placement of
  one block model per solid cell, and the point-collision query every entity uses.

  Row 0 of the grid is the TOP row of the level: a world Y coordinate is turned into
  a tile index counted from the bottom and then inverted.
*/
module MapChip {
  import opened Common
  import opened Geometry

  type Row = seq<int>
  type Grid = seq<Row>

  /** Tile code of static solid geometry; the only code collision treats as solid. */
  const Solid: int := 1

  /**
    The collision query bounds the column by row 0's width only and then indexes the
    row it lands in, so every row must be at least that wide for the read to be safe.
  */
  predicate RowsCoverFirst(g: Grid)
  {
    |g| == 0 || forall i :: 0 <= i < |g| ==> |g[i]| >= |g[0]|
  }

  /** Number of columns as the map reports it (GetColCount): row 0's width, or 0 when empty. */
  function ColCount(g: Grid): nat
  {
    if |g| == 0 then 0 else |g[0]|
  }

  /** A grid cell: `col` counts from the left, `row` indexes the grid (0 = top row). */
  datatype Cell = Cell(col: int, row: int)

  /** The cell a world point falls in, with the row index inverted. */
  function CellOf(g: Grid, p: Vec2): Cell
  {
    Cell(TileIndex(p.x), |g| - 1 - TileIndex(p.y))
  }

  /** A cell inside the bounds the collision query uses (row 0's width, the row count). */
  predicate InGrid(g: Grid, c: Cell)
  {
    0 <= c.row < |g| && 0 <= c.col < ColCount(g)
  }

  /** The world-space centre of a cell (where Load places that cell's block model). */
  function CellCentre(g: Grid, c: Cell): Vec2
  {
    Vec2(c.col as real * BlockSize + BlockSize / 2.0,
         (|g| - 1 - c.row) as real * BlockSize + BlockSize / 2.0)
  }

  /**
    Point collision: an empty grid never collides; a point outside the grid on any of
    the four sides collides; inside, only a cell holding exactly 1 collides.
  */
  function CheckCollision(g: Grid, p: Vec2): (solid: bool)
    requires RowsCoverFirst(g)
    ensures |g| == 0 ==> !solid
    ensures |g| > 0 && !InsideWorld(g, p) ==> solid
    ensures |g| > 0 && InsideWorld(g, p) ==>
              InGrid(g, CellOf(g, p)) && (solid <==> g[CellOf(g, p).row][CellOf(g, p).col] == Solid)
  {
    if |g| == 0 then false
    else
      var c := CellOf(g, p);
      if !InGrid(g, c) then true else g[c.row][c.col] == Solid
  }

  /** The cell under a world point, or None outside the grid (the -1 sentinel of the source). */
  function GetGridCoordinates(g: Grid, p: Vec2): (r: Option<Cell>)
    ensures r.Some? ==> InGrid(g, r.value) && r.value == CellOf(g, p)
    ensures r.None? <==> |g| == 0 || !InGrid(g, CellOf(g, p))
  {
    if |g| > 0 && InGrid(g, CellOf(g, p)) then Some(CellOf(g, p)) else None
  }

  /** Bounds-checked write of one cell: out of range it is a no-op, and nothing else changes. */
  function SetGridCell(g: Grid, c: Cell, v: int): (r: Grid)
    ensures |r| == |g|
    ensures forall i :: 0 <= i < |g| ==> |r[i]| == |g[i]|
    ensures 0 <= c.row < |g| && 0 <= c.col < |g[c.row]| ==> r[c.row][c.col] == v
    ensures forall i, j :: 0 <= i < |g| && 0 <= j < |g[i]| && (i != c.row || j != c.col) ==> r[i][j] == g[i][j]
    ensures RowsCoverFirst(g) ==> RowsCoverFirst(r)
  {
    if 0 <= c.row < |g| && 0 <= c.col < |g[c.row]| then g[c.row := g[c.row][c.col := v]] else g
  }

  // ---------------------------------------------------------------------------
  // Collision seen from world space
  // ---------------------------------------------------------------------------

  /** The playable rectangle: [0, cols * BlockSize) x [0, rows * BlockSize). */
  predicate InsideWorld(g: Grid, p: Vec2)
  {
    0.0 <= p.x < ColCount(g) as real * BlockSize && 0.0 <= p.y < |g| as real * BlockSize
  }

  /** Two points in the same tile get the same collision answer. */
  lemma SameTileSameAnswer(g: Grid, p: Vec2, q: Vec2)
    requires RowsCoverFirst(g)
    requires TileIndex(p.x) == TileIndex(q.x) && TileIndex(p.y) == TileIndex(q.y)
    ensures CheckCollision(g, p) == CheckCollision(g, q)
  {
  }

  /** Coordinates and collision agree: a valid cell answers by its code, an invalid one is solid. */
  lemma CoordinatesAgreeWithCollision(g: Grid, p: Vec2)
    requires RowsCoverFirst(g) && |g| > 0
    ensures GetGridCoordinates(g, p).Some? ==>
              (CheckCollision(g, p) <==> g[GetGridCoordinates(g, p).value.row][GetGridCoordinates(g, p).value.col] == Solid)
    ensures GetGridCoordinates(g, p).None? ==> CheckCollision(g, p)
  {
  }

  /** Placement and lookup are inverse: the centre of cell c maps back to c. */
  lemma CentreRoundTrip(g: Grid, c: Cell)
    requires RowsCoverFirst(g) && InGrid(g, c)
    ensures CellOf(g, CellCentre(g, c)) == c
    ensures GetGridCoordinates(g, CellCentre(g, c)) == Some(c)
    ensures CheckCollision(g, CellCentre(g, c)) <==> g[c.row][c.col] == Solid
  {
    var p := CellCentre(g, c);
    TileIndexUnique(p.x, c.col);
    TileIndexUnique(p.y, |g| - 1 - c.row);
  }

  /** Writing 1 into a valid cell makes every point of that cell solid. */
  lemma ClaimedCellIsSolid(g: Grid, c: Cell, p: Vec2)
    requires RowsCoverFirst(g) && InGrid(g, c)
    requires CellOf(g, p) == c
    ensures CheckCollision(SetGridCell(g, c, Solid), p)
  {
  }

  // ---------------------------------------------------------------------------
  // Parsing of the level file (one string per line)
  // ---------------------------------------------------------------------------

  /** Splits at every ',': k commas give k + 1 pieces, some possibly empty. */
  function Split(s: string): (pieces: seq<string>)
    ensures |pieces| >= 1
    ensures forall i :: 0 <= i < |pieces| ==> ',' !in pieces[i]
    decreases |s|
  {
    if |s| == 0 then [""]
    else
      var rest := Split(s[1..]);
      if s[0] == ',' then [""] + rest
      else [[s[0]] + rest[0]] + rest[1..]
  }

  /** Rejoins pieces with ','; the inverse of Split. */
  function Join(pieces: seq<string>): string
    requires |pieces| >= 1
  {
    if |pieces| == 1 then pieces[0] else pieces[0] + "," + Join(pieces[1..])
  }

  /** Splitting loses nothing: the pieces rejoin to the line. */
  lemma {:induction false} JoinSplit(s: string)
    ensures Join(Split(s)) == s
    decreases |s|
  {
    if |s| > 0 {
      JoinSplit(s[1..]);
      var rest := Split(s[1..]);
      if s[0] == ',' {
        assert Split(s) == [""] + rest;
        assert Join(Split(s)) == "" + "," + Join(rest);
      } else {
        var pieces := Split(s);
        if |rest| == 1 {
          assert pieces == [[s[0]] + rest[0]];
        } else {
          assert pieces[1..] == rest[1..];
          assert Join(rest) == rest[0] + "," + Join(rest[1..]);
        }
      }
    }
  }

  /** A comma-free prefix extends the first piece of whatever follows it. */
  lemma {:induction false} SplitCommaFreePrefix(a: string, t: string)
    requires ',' !in a
    ensures Split(a + t) == [a + Split(t)[0]] + Split(t)[1..]
    decreases |a|
  {
    if |a| > 0 {
      assert a[0] in a;
      assert forall c :: c in a[1..] ==> c in a;
      SplitCommaFreePrefix(a[1..], t);
      var first := Split(t)[0];
      assert (a + t)[1..] == a[1..] + t;
      assert (a + t)[0] == a[0] != ',';
      assert [a[0]] + (a[1..] + first) == a + first;
    } else {
      assert a + t == t;
      assert a + Split(t)[0] == Split(t)[0];
      assert Split(t) == [Split(t)[0]] + Split(t)[1..];
    }
  }

  /** Comma-free pieces survive a join followed by a split. */
  lemma {:induction false} SplitJoin(pieces: seq<string>)
    requires |pieces| >= 1
    requires forall i :: 0 <= i < |pieces| ==> ',' !in pieces[i]
    ensures Split(Join(pieces)) == pieces
    decreases |pieces|
  {
    if |pieces| == 1 {
      SplitCommaFreePrefix(pieces[0], "");
      assert pieces[0] + "" == pieces[0];
    } else {
      var tail := Join(pieces[1..]);
      SplitJoin(pieces[1..]);
      SplitCommaFreePrefix(pieces[0], "," + tail);
      assert ("," + tail)[1..] == tail;
      assert Split("," + tail) == [""] + pieces[1..];
      assert pieces[0] + "" == pieces[0];
      assert Join(pieces) == pieces[0] + ("," + tail);
    }
  }

  /**
    The fields std::getline yields when reading a line up to each ',': the pieces of
    Split, except that a final empty piece is not produced (an empty line has no
    fields, and "1,2," has two).
  */
  function Fields(line: string): (fs: seq<string>)
    ensures forall i :: 0 <= i < |fs| ==> ',' !in fs[i]
    ensures fs == [] <==> line == ""
    ensures fs != [] ==> line == Join(fs) || line == Join(fs) + ","
    ensures line != "" ==> (line == Join(fs) + "," <==> line[|line| - 1] == ',')
  {
    var pieces := Split(line);
    JoinSplit(line);
    if pieces[|pieces| - 1] != "" then
      JoinEndsWithLast(pieces);
      var last := pieces[|pieces| - 1];
      assert line[|line| - 1] == last[|last| - 1] && last[|last| - 1] in last;
      pieces
    else if |pieces| == 1 then []
    else JoinDropsEmptyLast(pieces); pieces[..|pieces| - 1]
  }

  /** The joined line ends with the last piece. */
  lemma {:induction false} JoinEndsWithLast(pieces: seq<string>)
    requires |pieces| >= 1
    ensures var j, last := Join(pieces), pieces[|pieces| - 1];
            |j| >= |last| && j[|j| - |last|..] == last
    decreases |pieces|
  {
    if |pieces| > 1 {
      JoinEndsWithLast(pieces[1..]);
      var tail := Join(pieces[1..]);
      var prefix := pieces[0] + ",";
      assert Join(pieces) == prefix + tail;
      assert (prefix + tail)[|prefix| + |tail| - |pieces[|pieces| - 1]|..] == tail[|tail| - |pieces[|pieces| - 1]|..];
    }
  }

  /** A final empty piece contributes only its separating comma to the join. */
  lemma {:induction false} JoinDropsEmptyLast(pieces: seq<string>)
    requires |pieces| >= 2 && pieces[|pieces| - 1] == ""
    ensures Join(pieces) == Join(pieces[..|pieces| - 1]) + ","
    decreases |pieces|
  {
    if |pieces| == 2 {
      assert Join(pieces[1..]) == "";
      assert pieces[..1][0] == pieces[0];
    } else {
      var init := pieces[..|pieces| - 1];
      JoinDropsEmptyLast(pieces[1..]);
      assert pieces[1..][..|pieces| - 2] == init[1..];
      assert init[0] == pieces[0];
      assert Join(init) == pieces[0] + "," + Join(init[1..]);
    }
  }

  /** Every character of the line is a digit or a separating comma. */
  predicate DigitsAndCommas(line: string)
  {
    forall i :: 0 <= i < |line| ==> line[i] == ',' || IsDigit(line[i])
  }

  /** Every piece is a digit string (the empty piece included). */
  predicate PiecesAreDigits(pieces: seq<string>)
  {
    forall i :: 0 <= i < |pieces| ==> AllDigits(pieces[i])
  }

  /** Prepending one character or one piece: the tests split into head and tail. */
  lemma ConsDigits(c: char, t: string, p: string, ps: seq<string>)
    ensures AllDigits([c] + t) <==> IsDigit(c) && AllDigits(t)
    ensures DigitsAndCommas([c] + t) <==> (c == ',' || IsDigit(c)) && DigitsAndCommas(t)
    ensures PiecesAreDigits([p] + ps) <==> AllDigits(p) && PiecesAreDigits(ps)
  {
    var s, qs := [c] + t, [p] + ps;
    assert s[0] == c && s[1..] == t;
    assert qs[0] == p && qs[1..] == ps;
    assert AllDigits(s) <==> IsDigit(c) && AllDigits(t) by {
      if IsDigit(c) && AllDigits(t) {
        forall i | 1 <= i < |s| ensures IsDigit(s[i]) { assert s[i] == t[i - 1]; }
      }
      if AllDigits(s) {
        forall i | 0 <= i < |t| ensures IsDigit(t[i]) { assert t[i] == s[i + 1]; }
      }
    }
    assert DigitsAndCommas(s) <==> (c == ',' || IsDigit(c)) && DigitsAndCommas(t) by {
      if (c == ',' || IsDigit(c)) && DigitsAndCommas(t) {
        forall i | 1 <= i < |s| ensures s[i] == ',' || IsDigit(s[i]) { assert s[i] == t[i - 1]; }
      }
      if DigitsAndCommas(s) {
        forall i | 0 <= i < |t| ensures t[i] == ',' || IsDigit(t[i]) { assert t[i] == s[i + 1]; }
      }
    }
    assert PiecesAreDigits(qs) <==> AllDigits(p) && PiecesAreDigits(ps) by {
      if AllDigits(p) && PiecesAreDigits(ps) {
        forall i | 1 <= i < |qs| ensures AllDigits(qs[i]) { assert qs[i] == ps[i - 1]; }
      }
      if PiecesAreDigits(qs) {
        forall i | 0 <= i < |ps| ensures AllDigits(ps[i]) { assert ps[i] == qs[i + 1]; }
      }
    }
  }

  /** The pieces of a line are all digit strings exactly when the line holds only digits and commas. */
  lemma {:induction false} SplitDigits(s: string)
    ensures PiecesAreDigits(Split(s)) <==> DigitsAndCommas(s)
    decreases |s|
  {
    if |s| > 0 {
      SplitDigits(s[1..]);
      var rest := Split(s[1..]);
      assert s == [s[0]] + s[1..];
      if s[0] == ',' {
        ConsDigits(s[0], s[1..], "", rest);
      } else {
        ConsDigits(s[0], s[1..], [s[0]] + rest[0], rest[1..]);
        ConsDigits(s[0], rest[0], rest[0], rest[1..]);
        assert rest == [rest[0]] + rest[1..];
      }
    }
  }

  predicate IsDigit(c: char)
  {
    '0' <= c <= '9'
  }

  predicate AllDigits(f: string)
  {
    forall i :: 0 <= i < |f| ==> IsDigit(f[i])
  }

  /** The decimal value of a digit string. */
  function DigitsValue(f: string): nat
    requires AllDigits(f)
  {
    if |f| == 0 then 0 else DigitsValue(f[..|f| - 1]) * 10 + (f[|f| - 1] as int - '0' as int)
  }

  /** One field: empty parses as 0, a digit string as its value, anything else is rejected. */
  function ParseField(f: string): (r: Result<int>)
    ensures r.Ok? <==> AllDigits(f)
    ensures f == "" ==> r == Ok(0)
    ensures r.Ok? ==> r.value >= 0
    ensures r.Ok? && f != "" ==> r.value == DigitsValue(f)
  {
    if |f| == 0 then Ok(0)
    else if AllDigits(f) then Ok(DigitsValue(f))
    else Err("cell is not a non-negative integer")
  }

  function ParseFields(fs: seq<string>): (r: Result<Row>)
    ensures r.Ok? <==> forall i :: 0 <= i < |fs| ==> ParseField(fs[i]).Ok?
    ensures r.Ok? ==> |r.value| == |fs| && forall i :: 0 <= i < |fs| ==> ParseField(fs[i]) == Ok(r.value[i])
  {
    if |fs| == 0 then Ok([])
    else
      var head := ParseField(fs[0]);
      var tail := ParseFields(fs[1..]);
      if head.Err? then Err(head.message)
      else if tail.Err? then Err(tail.message)
      else Ok([head.value] + tail.value)
  }

  /** One line of the level file becomes one row, with as many cells as the line has fields. */
  function ParseRow(line: string): (r: Result<Row>)
    ensures r.Ok? <==> DigitsAndCommas(line)
    ensures r.Ok? ==> |r.value| == |Fields(line)| && forall i :: 0 <= i < |r.value| ==> r.value[i] >= 0
    ensures r.Ok? ==> forall i :: 0 <= i < |r.value| ==> ParseField(Fields(line)[i]) == Ok(r.value[i])
  {
    SplitDigits(line);
    ParseFields(Fields(line))
  }

  /** Every line becomes exactly one row, in order; the first bad field rejects the whole file. */
  function ParseLines(lines: seq<string>): (r: Result<Grid>)
    ensures r.Ok? <==> forall i :: 0 <= i < |lines| ==> ParseRow(lines[i]).Ok?
    ensures r.Ok? ==> |r.value| == |lines| && forall i :: 0 <= i < |lines| ==> ParseRow(lines[i]) == Ok(r.value[i])
  {
    if |lines| == 0 then Ok([])
    else
      var head := ParseRow(lines[0]);
      var tail := ParseLines(lines[1..]);
      if head.Err? then Err(head.message)
      else if tail.Err? then Err(tail.message)
      else Ok([head.value] + tail.value)
  }

  // ---------------------------------------------------------------------------
  // Rendering a grid back to text, the partner of parsing
  // ---------------------------------------------------------------------------

  function DigitChar(d: nat): char
    requires d < 10
  {
    ('0' as int + d) as char
  }

  /** Decimal digits of a natural number, without leading zeros. */
  function NatToDigits(n: nat): (s: string)
    ensures |s| >= 1 && AllDigits(s) && DigitsValue(s) == n
  {
    if n < 10 then [DigitChar(n)]
    else
      var prefix := NatToDigits(n / 10);
      var d := DigitChar(n % 10);
      var s := prefix + [d];
      assert d as int - '0' as int == n % 10;
      assert s[..|s| - 1] == prefix;
      assert IsDigit(d);
      s
  }

  predicate NonNegativeRow(row: Row)
  {
    forall j :: 0 <= j < |row| ==> row[j] >= 0
  }

  function RenderFields(row: Row): (fs: seq<string>)
    requires NonNegativeRow(row)
    ensures |fs| == |row|
    ensures forall j :: 0 <= j < |row| ==> fs[j] == NatToDigits(row[j])
  {
    if |row| == 0 then [] else [NatToDigits(row[0])] + RenderFields(row[1..])
  }

  /** A row written as the level file writes it: decimal cells joined by ','. */
  function RenderRow(row: Row): string
    requires NonNegativeRow(row)
  {
    if |row| == 0 then "" else Join(RenderFields(row))
  }

  /** Parsing a rendered row gives the row back, whatever its length (ragged rows are kept). */
  lemma RowRoundTrip(row: Row)
    requires NonNegativeRow(row)
    ensures ParseRow(RenderRow(row)) == Ok(row)
  {
    if |row| == 0 {
      assert Split("") == [""];
      assert Fields("") == [];
    } else {
      var fs := RenderFields(row);
      forall i | 0 <= i < |fs|
        ensures ',' !in fs[i]
      {
        assert AllDigits(fs[i]) && !IsDigit(',');
      }
      SplitJoin(fs);
      assert fs[|fs| - 1] != "";
      assert Fields(RenderRow(row)) == fs;
      var r := ParseFields(fs);
      forall i | 0 <= i < |fs|
        ensures ParseField(fs[i]) == Ok(row[i])
      {
      }
      assert r.Ok?;
      assert r.value == row;
    }
  }

  /** The level file of a grid: one rendered line per row. */
  function RenderLines(g: Grid): (lines: seq<string>)
    requires forall i :: 0 <= i < |g| ==> NonNegativeRow(g[i])
  {
    seq(|g|, i requires 0 <= i < |g| => RenderRow(g[i]))
  }

  /** Parsing rendered lines rebuilds the grid row for row. */
  lemma GridRoundTrip(g: Grid)
    requires forall i :: 0 <= i < |g| ==> NonNegativeRow(g[i])
    ensures ParseLines(RenderLines(g)) == Ok(g)
  {
    var lines := RenderLines(g);
    forall i | 0 <= i < |g|
      ensures ParseRow(lines[i]) == Ok(g[i])
    {
      RowRoundTrip(g[i]);
    }
    var r := ParseLines(lines);
    assert r.Ok?;
    assert r.value == g;
  }

  /** An empty field between two commas reads as 0. */
  lemma EmptyFieldReadsZero()
    ensures ParseRow("1,,3") == Ok([1, 0, 3])
  {
    assert "3"[1..] == "" && ",3"[1..] == "3" && ",,3"[1..] == ",3" && "1,,3"[1..] == ",,3";
    assert ['3'] + "" == "3" && ['1'] + "" == "1";
    assert Split("1,,3") == ["1", "", "3"];
    assert Fields("1,,3") == ["1", "", "3"];
    var fs: seq<string> := ["1", "", "3"];
    assert fs[1..] == ["", "3"] && fs[1..][1..] == ["3"] && fs[1..][1..][1..] == [];
    assert AllDigits("3") && AllDigits("1");
    assert "3"[..0] == "" && "1"[..0] == "";
    assert ParseField("3") == Ok(3) && ParseField("1") == Ok(1) && ParseField("") == Ok(0);
    var none: seq<int> := [];
    var f3 := fs[1..][1..];
    assert ParseFields(f3[1..]) == Ok(none);
    assert ParseFields(f3) == Ok([ParseField(f3[0]).value] + ParseFields(f3[1..]).value);
    assert [3] + none == [3];
    var f2 := fs[1..];
    assert ParseFields(f2) == Ok([ParseField(f2[0]).value] + ParseFields(f2[1..]).value);
    assert ParseFields(fs) == Ok([ParseField(fs[0]).value] + ParseFields(fs[1..]).value);
    assert [1] + ([0] + [3]) == [1, 0, 3];
    assert ParseRow("1,,3") == ParseFields(fs);
  }

  /** A trailing ',' adds no cell, and an empty line gives an empty row. */
  lemma TrailingCommaAddsNoCell()
    ensures ParseRow("1,2,") == Ok([1, 2])
    ensures ParseRow("") == Ok([])
  {
    assert ","[1..] == "" && "2,"[1..] == "," && ",2,"[1..] == "2," && "1,2,"[1..] == ",2,";
    assert ['2'] + "" == "2" && ['1'] + "" == "1";
    assert Split("1,2,") == ["1", "2", ""];
    assert Fields("1,2,") == ["1", "2"];
    var fs: seq<string> := ["1", "2"];
    assert fs[1..] == ["2"] && fs[1..][1..] == [];
    assert AllDigits("2") && AllDigits("1");
    assert "2"[..0] == "" && "1"[..0] == "";
    assert ParseField("2") == Ok(2) && ParseField("1") == Ok(1);
    var none: seq<int> := [];
    var f2 := fs[1..];
    assert ParseFields(f2[1..]) == Ok(none);
    assert ParseFields(f2) == Ok([ParseField(f2[0]).value] + ParseFields(f2[1..]).value);
    assert [2] + none == [2];
    assert ParseFields(fs) == Ok([ParseField(fs[0]).value] + ParseFields(fs[1..]).value);
    assert [1] + [2] == [1, 2];
    assert ParseRow("1,2,") == ParseFields(fs);
    assert Split("") == [""] && Fields("") == [];
  }

  /** A field that is not a digit string rejects the row. */
  lemma NonDigitRejected()
    ensures ParseRow("1,x").Err?
  {
    assert "x"[1..] == "" && ",x"[1..] == "x" && "1,x"[1..] == ",x";
    assert ['x'] + "" == "x" && ['1'] + "" == "1";
    assert Split("1,x") == ["1", "x"];
    assert !IsDigit('x');
    assert ParseField("x").Err?;
  }

  // ---------------------------------------------------------------------------
  // Load: parse the lines, then place one block model per solid cell
  // ---------------------------------------------------------------------------

  /** A loaded map: the grid and the centre of every block model placed for it. */
  datatype Level = Level(data: Grid, blocks: seq<Vec2>)

  /** Row-major order: earlier rows first, then smaller columns. */
  predicate RowMajorBefore(a: Cell, b: Cell)
  {
    a.row < b.row || (a.row == b.row && a.col < b.col)
  }

  /** Solid cells of row y with column below x, left to right. */
  function RowOnes(g: Grid, y: nat, x: nat): seq<Cell>
    requires y < |g| && x <= |g[y]|
  {
    if x == 0 then [] else RowOnes(g, y, x - 1) + (if g[y][x - 1] == Solid then [Cell(x - 1, y)] else [])
  }

  /** Solid cells of the rows above row y, in row-major order. */
  function OnesUpTo(g: Grid, y: nat): seq<Cell>
    requires y <= |g|
  {
    if y == 0 then [] else OnesUpTo(g, y - 1) + RowOnes(g, y - 1, |g[y - 1]|)
  }

  /** RowOnes lists exactly the solid cells of its stretch of row, in increasing column order. */
  lemma {:induction false} RowOnesSpec(g: Grid, y: nat, x: nat)
    requires y < |g| && x <= |g[y]|
    ensures forall k :: 0 <= k < |RowOnes(g, y, x)| ==>
              RowOnes(g, y, x)[k].row == y && 0 <= RowOnes(g, y, x)[k].col < x && g[y][RowOnes(g, y, x)[k].col] == Solid
    ensures forall j :: 0 <= j < x && g[y][j] == Solid ==> Cell(j, y) in RowOnes(g, y, x)
    ensures forall k, l :: 0 <= k < l < |RowOnes(g, y, x)| ==> RowOnes(g, y, x)[k].col < RowOnes(g, y, x)[l].col
  {
    if x > 0 {
      RowOnesSpec(g, y, x - 1);
    }
  }

  /** OnesUpTo lists exactly the solid cells of its rows, in row-major order. */
  lemma {:induction false} OnesUpToSpec(g: Grid, y: nat)
    requires y <= |g|
    ensures forall k :: 0 <= k < |OnesUpTo(g, y)| ==>
              0 <= OnesUpTo(g, y)[k].row < y && 0 <= OnesUpTo(g, y)[k].col < |g[OnesUpTo(g, y)[k].row]|
              && g[OnesUpTo(g, y)[k].row][OnesUpTo(g, y)[k].col] == Solid
    ensures forall i, j :: 0 <= i < y && 0 <= j < |g[i]| && g[i][j] == Solid ==> Cell(j, i) in OnesUpTo(g, y)
    ensures forall k, l :: 0 <= k < l < |OnesUpTo(g, y)| ==> RowMajorBefore(OnesUpTo(g, y)[k], OnesUpTo(g, y)[l])
  {
    if y > 0 {
      OnesUpToSpec(g, y - 1);
      RowOnesSpec(g, y - 1, |g[y - 1]|);
    }
  }

  /** Every cell holding 1, in the order Load visits them. */
  function OneCells(g: Grid): seq<Cell>
  {
    OnesUpTo(g, |g|)
  }

  /** The same cells as a set, defined independently of any traversal order. */
  function OneCellSet(g: Grid): set<Cell>
  {
    set i, j | 0 <= i < |g| && 0 <= j < |g[i]| && g[i][j] == Solid :: Cell(j, i)
  }

  function CentresOf(g: Grid, cs: seq<Cell>): (ps: seq<Vec2>)
    ensures |ps| == |cs|
    ensures forall k :: 0 <= k < |cs| ==> ps[k] == CellCentre(g, cs[k])
  {
    if |cs| == 0 then [] else CentresOf(g, cs[..|cs| - 1]) + [CellCentre(g, cs[|cs| - 1])]
  }

  /** The block models Load places: one centre per solid cell, in row-major order. */
  function BlockCentres(g: Grid): seq<Vec2>
  {
    CentresOf(g, OneCells(g))
  }

  lemma CentresOfAppend(g: Grid, cs: seq<Cell>, c: Cell)
    ensures CentresOf(g, cs + [c]) == CentresOf(g, cs) + [CellCentre(g, c)]
  {
    assert (cs + [c])[..|cs|] == cs;
  }

  /** Advancing one column appends that cell exactly when it holds 1. */
  lemma RowOnesStep(g: Grid, y: nat, x: nat)
    requires y < |g| && x < |g[y]|
    ensures RowOnes(g, y, x + 1) == RowOnes(g, y, x) + (if g[y][x] == Solid then [Cell(x, y)] else [])
  {
  }

  /** Walks the grid row by row, placing a block model at the centre of every cell holding 1. */
  method PlaceBlocks(data: Grid) returns (blocks: seq<Vec2>)
    ensures blocks == BlockCentres(data)
  {
    blocks := [];
    var y := 0;
    while y < |data|
      invariant 0 <= y <= |data|
      invariant blocks == CentresOf(data, OnesUpTo(data, y))
    {
      ghost var done := OnesUpTo(data, y);
      var x := 0;
      while x < |data[y]|
        invariant 0 <= x <= |data[y]|
        invariant blocks == CentresOf(data, done + RowOnes(data, y, x))
      {
        RowOnesStep(data, y, x);
        if data[y][x] == Solid {
          CentresOfAppend(data, done + RowOnes(data, y, x), Cell(x, y));
          assert done + RowOnes(data, y, x + 1) == (done + RowOnes(data, y, x)) + [Cell(x, y)];
          blocks := blocks + [CellCentre(data, Cell(x, y))];
        } else {
          assert done + RowOnes(data, y, x + 1) == done + RowOnes(data, y, x);
        }
        x := x + 1;
      }
      assert OnesUpTo(data, y + 1) == done + RowOnes(data, y, |data[y]|);
      y := y + 1;
    }
  }

  /**
    Load discards whatever was loaded before: the result is built from the lines
    alone, one row per line, followed by the block models for its solid cells.
  */
  method Load(lines: seq<string>) returns (r: Result<Level>)
    ensures r.Ok? <==> forall i :: 0 <= i < |lines| ==> ParseRow(lines[i]).Ok?
    ensures r.Ok? ==> |r.value.data| == |lines|
    ensures r.Ok? ==> forall i :: 0 <= i < |lines| ==> ParseRow(lines[i]) == Ok(r.value.data[i])
    ensures r.Ok? ==> r.value.blocks == BlockCentres(r.value.data)
  {
    var parsed := ParseLines(lines);
    if parsed.Err? {
      return Err(parsed.message);
    }
    var blocks := PlaceBlocks(parsed.value);
    return Ok(Level(parsed.value, blocks));
  }

  /** Row-major order has no repeats. */
  lemma OneCellsDistinct(g: Grid)
    ensures forall k, l :: 0 <= k < l < |OneCells(g)| ==> OneCells(g)[k] != OneCells(g)[l]
  {
    OnesUpToSpec(g, |g|);
  }

  lemma {:induction false} DistinctSeqCardinality(cs: seq<Cell>)
    requires forall k, l :: 0 <= k < l < |cs| ==> cs[k] != cs[l]
    ensures |set c | c in cs| == |cs|
    decreases |cs|
  {
    if |cs| > 0 {
      var init := cs[..|cs| - 1];
      var last := cs[|cs| - 1];
      DistinctSeqCardinality(init);
      assert last !in init;
      assert (set c | c in cs) == (set c | c in init) + {last};
    }
  }

  /**
    Exactly one block per solid cell: the centres are those of the cells holding 1,
    no cell is placed twice, and their number is the number of cells holding 1.
  */
  lemma {:induction false} BlocksMatchSolidCells(g: Grid)
    ensures forall c :: c in OneCells(g) <==> c in OneCellSet(g)
    ensures |BlockCentres(g)| == |OneCellSet(g)|
    ensures forall k :: 0 <= k < |BlockCentres(g)| ==>
              OneCells(g)[k] in OneCellSet(g) && BlockCentres(g)[k] == CellCentre(g, OneCells(g)[k])
  {
    var cs := OneCells(g);
    OnesUpToSpec(g, |g|);
    forall c | c in OneCellSet(g)
      ensures c in cs
    {
      assert 0 <= c.row < |g| && 0 <= c.col < |g[c.row]| && g[c.row][c.col] == Solid;
    }
    forall c | c in cs
      ensures c in OneCellSet(g)
    {
      var k :| 0 <= k < |cs| && cs[k] == c;
      assert 0 <= c.row < |g| && 0 <= c.col < |g[c.row]| && g[c.row][c.col] == Solid;
    }
    OneCellsDistinct(g);
    DistinctSeqCardinality(cs);
    assert (set c | c in cs) == OneCellSet(g);
  }

  /** Every placed block model sits on a cell collision treats as solid. */
  lemma BlocksAreSolid(g: Grid)
    requires RowsCoverFirst(g)
    ensures forall k :: 0 <= k < |BlockCentres(g)| ==> CheckCollision(g, BlockCentres(g)[k])
  {
    var cs := OneCells(g);
    OnesUpToSpec(g, |g|);
    forall k | 0 <= k < |cs|
      ensures CheckCollision(g, BlockCentres(g)[k])
    {
      var c := cs[k];
      var p := CellCentre(g, c);
      TileIndexUnique(p.x, c.col);
      TileIndexUnique(p.y, |g| - 1 - c.row);
      assert CellOf(g, p) == c;
    }
  }
}

=== FILE: player.dfy ===
/**
  The player controller: one fixed tick of gravity / wall slide, Y-then-X collision
  resolution against the tile grid, a buffered jump, and the life-cycle operations
  (Die, Reset, SetPosition) plus the scripted exit-lane test.
*/
module Player {
  import opened Geometry
  import opened MapChip

  const MoveSpeed: real := 0.1
  const Gravity: real := 0.025
  const JumpPower: real := 0.45
  const WallSlideSpeed: real := 0.02
  const WallJumpPowerX: real := 0.3
  const WallJumpPowerY: real := 0.42
  /** Half the side of the player's square collision box. */
  const HalfSize: real := 0.2
  /** Offset of the horizontal probes from the box's top/bottom edge, and of the horizontal snap. */
  const Inset: real := 0.001
  /** Value the jump buffer is armed with on a press, and its decrement per tick. */
  const BufferTime: real := 0.1
  const BufferDecay: real := 0.016
  /** Facing is only updated from horizontal speed above this magnitude while airborne. */
  const FacingThreshold: real := 0.01
  /** Column count assumed when the map reports none. */
  const DefaultColCount: nat := 20
  /** The scripted exit lane: above TopExitMinY or below BottomExitMaxY, right of the map. */
  const TopExitMinY: real := 7.7
  const BottomExitMaxY: real := 0.7
  const InitialPosition: Vec2 := Vec2(2.0, 9.0)

  datatype WallSide = NoWall | LeftWall | RightWall

  /** Model yaw: Front until the first turn; FacingRight / FacingLeft are -pi/2 / +pi/2. */
  datatype Facing = Front | FacingLeft | FacingRight

  datatype PlayerState = PlayerState(
    pos: Vec2,
    vel: Vec2,
    onGround: bool,
    wall: WallSide,
    jumpBuffer: real,
    alive: bool,
    respawn: Vec2,
    facing: Facing)

  /** The per-tick input snapshot: A held, D held, Space pressed this tick. */
  datatype Input = Input(leftHeld: bool, rightHeld: bool, jumpPressed: bool)

  /** Horizontal speed chosen by the keys; A wins when both are held. */
  function MoveX(input: Input): (v: real)
    ensures v == -MoveSpeed || v == 0.0 || v == MoveSpeed
    ensures input.leftHeld ==> v == -MoveSpeed
    ensures !input.leftHeld ==> (v == MoveSpeed <==> input.rightHeld)
  {
    if input.leftHeld then -MoveSpeed else if input.rightHeld then MoveSpeed else 0.0
  }

  // ---------------------------------------------------------------------------
  // Step 1: gravity or wall slide, from the previous tick's contact flags
  // ---------------------------------------------------------------------------

  predicate Sliding(p: PlayerState)
  {
    p.wall != NoWall && !p.onGround && p.vel.y < -WallSlideSpeed
  }

  /** The vertical speed after gravity: wall slide caps a fall, otherwise gravity accelerates it. */
  function FallSpeed(p: PlayerState): (vy: real)
    ensures Sliding(p) ==> vy == -WallSlideSpeed && vy > p.vel.y
    ensures !Sliding(p) ==> vy == p.vel.y - Gravity
    ensures p.wall != NoWall && !p.onGround ==> vy >= -(WallSlideSpeed + Gravity)
  {
    if Sliding(p) then -WallSlideSpeed else p.vel.y - Gravity
  }

  // ---------------------------------------------------------------------------
  // Step 2: vertical move and collision, probing at the pre-move X
  // ---------------------------------------------------------------------------

  datatype YStep = YStep(y: real, vy: real, grounded: bool)

  /** Either bottom/top corner probe of a box centred at x hits at height y. */
  predicate ProbesHit(g: Grid, x: real, y: real)
    requires RowsCoverFirst(g)
  {
    CheckCollision(g, Vec2(x - HalfSize, y)) || CheckCollision(g, Vec2(x + HalfSize, y))
  }

  /**
    Moves the box vertically by vy. Falling into a tile lifts the box so its bottom
    rests on that tile's top; rising into a tile lowers it so its top meets the tile's
    bottom. Either stops vertical motion, and only landing grounds the player.
  */
  function ResolveY(g: Grid, x: real, y: real, vy: real): (r: YStep)
    requires RowsCoverFirst(g)
    ensures r.grounded <==> vy < 0.0 && ProbesHit(g, x, y + vy - HalfSize)
    ensures r.grounded ==>
              r.vy == 0.0
              && r.y - HalfSize == (TileIndex(y + vy - HalfSize) + 1) as real * BlockSize
              && y + vy - HalfSize < r.y - HalfSize <= y + vy - HalfSize + BlockSize
    ensures vy > 0.0 && ProbesHit(g, x, y + vy + HalfSize) ==>
              r.vy == 0.0 && !r.grounded
              && r.y + HalfSize == TileIndex(y + vy + HalfSize) as real * BlockSize
              && y + vy + HalfSize - BlockSize < r.y + HalfSize <= y + vy + HalfSize
    ensures !(vy < 0.0 && ProbesHit(g, x, y + vy - HalfSize)) && !(vy > 0.0 && ProbesHit(g, x, y + vy + HalfSize)) ==>
              r == YStep(y + vy, vy, false)
  {
    var ny := y + vy;
    if vy < 0.0 && ProbesHit(g, x, ny - HalfSize) then
      YStep((TileIndex(ny - HalfSize) + 1) as real * BlockSize + HalfSize, 0.0, true)
    else if vy > 0.0 && ProbesHit(g, x, ny + HalfSize) then
      YStep(TileIndex(ny + HalfSize) as real * BlockSize - HalfSize, 0.0, false)
    else
      YStep(ny, vy, false)
  }

  /**
    After a landing the player stands on the struck tile: every point up to one tile
    below its new bottom edge, under the probe that hit, is solid.
  */
  lemma LandedOnSolid(g: Grid, x: real, y: real, vy: real, side: real, depth: real)
    requires RowsCoverFirst(g)
    requires side == x - HalfSize || side == x + HalfSize
    requires CheckCollision(g, Vec2(side, y + vy - HalfSize))
    requires vy < 0.0
    requires 0.0 < depth <= BlockSize
    ensures ResolveY(g, x, y, vy).grounded
    ensures CheckCollision(g, Vec2(side, ResolveY(g, x, y, vy).y - HalfSize - depth))
  {
    var b := y + vy - HalfSize;
    var r := ResolveY(g, x, y, vy);
    var k := TileIndex(b);
    TileIndexUnique(r.y - HalfSize - depth, k);
    SameTileSameAnswer(g, Vec2(side, b), Vec2(side, r.y - HalfSize - depth));
  }

  /** After bumping a ceiling, the point just above the new top edge is in the struck tile. */
  lemma BumpedUnderSolid(g: Grid, x: real, y: real, vy: real, side: real, height: real)
    requires RowsCoverFirst(g)
    requires side == x - HalfSize || side == x + HalfSize
    requires CheckCollision(g, Vec2(side, y + vy + HalfSize))
    requires vy > 0.0
    requires 0.0 <= height < BlockSize
    ensures ResolveY(g, x, y, vy).vy == 0.0
    ensures CheckCollision(g, Vec2(side, ResolveY(g, x, y, vy).y + HalfSize + height))
  {
    var t := y + vy + HalfSize;
    var r := ResolveY(g, x, y, vy);
    TileIndexUnique(r.y + HalfSize + height, TileIndex(t));
    SameTileSameAnswer(g, Vec2(side, t), Vec2(side, r.y + HalfSize + height));
  }

  // ---------------------------------------------------------------------------
  // Step 3: horizontal move and collision, probing at the resolved Y
  // ---------------------------------------------------------------------------

  datatype XStep = XStep(x: real, vx: real, wall: WallSide)

  /** Width of the map used by the exit lane: the reported column count, or 20 when there is none. */
  function MapWidth(g: Grid): (w: real)
    ensures ColCount(g) > 0 ==> w == ColCount(g) as real * BlockSize
    ensures ColCount(g) == 0 ==> w == DefaultColCount as real * BlockSize
  {
    var cols := if ColCount(g) > 0 then ColCount(g) else DefaultColCount;
    cols as real * BlockSize
  }

  /** The scripted exit lane: a height band above TopExitMinY or below BottomExitMaxY. */
  predicate InExitBand(y: real)
  {
    y > TopExitMinY || y < BottomExitMaxY
  }

  /** The lower horizontal probe looks just above the feet on the ground and just below them in the air. */
  function ProbeBottom(y: real, grounded: bool): (b: real)
    ensures grounded ==> b > y - HalfSize
    ensures !grounded ==> b < y - HalfSize
  {
    if grounded then y - HalfSize + Inset else y - HalfSize - Inset
  }

  predicate SideHit(g: Grid, edge: real, y: real, grounded: bool)
    requires RowsCoverFirst(g)
  {
    CheckCollision(g, Vec2(edge, y + HalfSize - Inset)) || CheckCollision(g, Vec2(edge, ProbeBottom(y, grounded)))
  }

  /** A rightward hit is ignored past the map's right edge inside the exit band (of the pre-move Y). */
  predicate RightHitIgnored(g: Grid, right: real, preY: real)
  {
    right > MapWidth(g) && InExitBand(preY)
  }

  predicate BlockedLeft(g: Grid, x: real, y: real, vx: real, grounded: bool)
    requires RowsCoverFirst(g)
  {
    vx < 0.0 && SideHit(g, x + vx - HalfSize, y, grounded)
  }

  predicate BlockedRight(g: Grid, x: real, preY: real, y: real, vx: real, grounded: bool)
    requires RowsCoverFirst(g)
  {
    vx > 0.0 && SideHit(g, x + vx + HalfSize, y, grounded) && !RightHitIgnored(g, x + vx + HalfSize, preY)
  }

  /**
    Moves the box horizontally by vx at the already-resolved height y. A blocked move
    snaps the box just clear of the struck tile and stops it; wall contact is recorded
    only when the player is airborne.
  */
  function ResolveX(g: Grid, x: real, preY: real, y: real, vx: real, grounded: bool): (r: XStep)
    requires RowsCoverFirst(g)
    ensures r.wall != NoWall ==> !grounded
    ensures r.wall == LeftWall <==> !grounded && BlockedLeft(g, x, y, vx, grounded)
    ensures r.wall == RightWall <==> !grounded && BlockedRight(g, x, preY, y, vx, grounded)
    ensures BlockedLeft(g, x, y, vx, grounded) ==>
              r.vx == 0.0
              && r.x - HalfSize == (TileIndex(x + vx - HalfSize) + 1) as real * BlockSize + Inset
              && r.x - HalfSize > x + vx - HalfSize
    ensures BlockedRight(g, x, preY, y, vx, grounded) ==>
              r.vx == 0.0
              && r.x + HalfSize == TileIndex(x + vx + HalfSize) as real * BlockSize - Inset
              && r.x + HalfSize < x + vx + HalfSize
    ensures !BlockedLeft(g, x, y, vx, grounded) && !BlockedRight(g, x, preY, y, vx, grounded) ==>
              r == XStep(x + vx, vx, NoWall)
  {
    var nx := x + vx;
    if BlockedLeft(g, x, y, vx, grounded) then
      XStep((TileIndex(nx - HalfSize) + 1) as real * BlockSize + HalfSize + Inset, 0.0,
            if grounded then NoWall else LeftWall)
    else if BlockedRight(g, x, preY, y, vx, grounded) then
      XStep(TileIndex(nx + HalfSize) as real * BlockSize - HalfSize - Inset, 0.0,
            if grounded then NoWall else RightWall)
    else
      XStep(nx, vx, NoWall)
  }

  /** Inside the exit lane a rightward move is never stopped, whatever the grid holds. */
  lemma ExitLaneLetsPlayerThrough(g: Grid, x: real, preY: real, y: real, grounded: bool)
    requires RowsCoverFirst(g)
    requires x + MoveSpeed + HalfSize > MapWidth(g) && InExitBand(preY)
    ensures ResolveX(g, x, preY, y, MoveSpeed, grounded) == XStep(x + MoveSpeed, MoveSpeed, NoWall)
  {
  }

  // ---------------------------------------------------------------------------
  // Step 4: jump buffer and jump choice
  // ---------------------------------------------------------------------------

  /** The buffer counts down while positive; a press re-arms it after the countdown. */
  function BufferStep(jb: real, pressed: bool): (r: real)
    ensures pressed ==> r == BufferTime
    ensures !pressed && jb > 0.0 ==> r == jb - BufferDecay
    ensures !pressed && jb <= 0.0 ==> r == jb
  {
    var decayed := if jb > 0.0 then jb - BufferDecay else jb;
    if pressed then BufferTime else decayed
  }

  /** The buffer after n ticks without a press. */
  function BufferAfter(jb: real, n: nat): real
  {
    if n == 0 then jb else BufferStep(BufferAfter(jb, n - 1), false)
  }

  lemma {:induction false} BufferCountdown(n: nat)
    ensures n <= 7 ==> BufferAfter(BufferTime, n) == BufferTime - n as real * BufferDecay
    ensures n >= 7 ==> BufferAfter(BufferTime, n) == BufferTime - 7.0 * BufferDecay
  {
    if n > 0 {
      BufferCountdown(n - 1);
    }
  }

  /**
    The buffer window: after a press the buffer stays armed for the press tick and the
    6 following ticks without a press, and is spent from the 7th on.
  */
  lemma BufferWindow(jb: real, n: nat)
    ensures BufferAfter(BufferStep(jb, true), n) > 0.0 <==> n <= 6
  {
    BufferCountdown(n);
  }

  datatype Jump = NoJump | GroundJump | WallJumpOffLeft | WallJumpOffRight

  /**
    With the buffer armed, a grounded player jumps; otherwise a wall contact fires a wall
    jump unless the held direction pushes into that wall.
  */
  function ChooseJump(jb: real, grounded: bool, wall: WallSide, moveX: real): (j: Jump)
    ensures jb <= 0.0 ==> j == NoJump
    ensures jb > 0.0 && grounded ==> j == GroundJump
    ensures j == WallJumpOffLeft <==> jb > 0.0 && !grounded && wall == LeftWall && moveX >= 0.0
    ensures j == WallJumpOffRight <==> jb > 0.0 && !grounded && wall == RightWall && moveX <= 0.0
  {
    if jb <= 0.0 then NoJump
    else if grounded then GroundJump
    else if wall == LeftWall && moveX >= 0.0 then WallJumpOffLeft
    else if wall == RightWall && moveX <= 0.0 then WallJumpOffRight
    else NoJump
  }

  /** Facing follows the keys on the ground, and clear horizontal motion in the air away from walls. */
  function NewFacing(prev: Facing, grounded: bool, wall: WallSide, moveX: real, vx: real): (f: Facing)
    ensures f != prev ==> f != Front
    ensures f == FacingRight && prev != FacingRight ==>
              (grounded && moveX > 0.0) || (!grounded && wall == NoWall && vx > FacingThreshold)
    ensures f == FacingLeft && prev != FacingLeft ==>
              (grounded && moveX < 0.0) || (!grounded && wall == NoWall && vx < -FacingThreshold)
    ensures !grounded && wall != NoWall ==> f == prev
    ensures Abs(vx) <= FacingThreshold && moveX == 0.0 ==> f == prev
  {
    if grounded then
      (if moveX > 0.0 then FacingRight else if moveX < 0.0 then FacingLeft else prev)
    else if wall == NoWall then
      (if vx > FacingThreshold then FacingRight else if vx < -FacingThreshold then FacingLeft else prev)
    else prev
  }

  // ---------------------------------------------------------------------------
  // The tick
  // ---------------------------------------------------------------------------

  /**
    One Player::Update. Note that the source runs it whether or not the player is
    alive; only the hazards stop reacting to a dead player.
  */
  function Update(g: Grid, p: PlayerState, input: Input): (r: PlayerState)
    requires RowsCoverFirst(g)
    ensures r.alive == p.alive && r.respawn == p.respawn
    ensures r.onGround ==> r.wall == NoWall && r.vel.y == 0.0
    ensures
      var ys := ResolveY(g, p.pos.x, p.pos.y, FallSpeed(p));
      var jb := BufferStep(p.jumpBuffer, input.jumpPressed);
      && (jb > 0.0 && ys.grounded ==> r.vel.y == JumpPower && !r.onGround && r.jumpBuffer == 0.0)
      && (jb <= 0.0 ==> r.jumpBuffer == jb && r.onGround == ys.grounded && r.vel.y == ys.vy)
    ensures
      var ys := ResolveY(g, p.pos.x, p.pos.y, FallSpeed(p));
      var xs := ResolveX(g, p.pos.x, p.pos.y, ys.y, MoveX(input), ys.grounded);
      r.pos == Vec2(xs.x, ys.y)
    ensures r.wall != NoWall ==> r.vel.x == 0.0
    ensures
      var ys := ResolveY(g, p.pos.x, p.pos.y, FallSpeed(p));
      var xs := ResolveX(g, p.pos.x, p.pos.y, ys.y, MoveX(input), ys.grounded);
      var jb := BufferStep(p.jumpBuffer, input.jumpPressed);
      && (ChooseJump(jb, ys.grounded, xs.wall, MoveX(input)) == NoJump ==>
            r.vel == Vec2(xs.vx, ys.vy) && r.onGround == ys.grounded && r.wall == xs.wall && r.jumpBuffer == jb)
      && (jb > 0.0 && ys.grounded ==> r.vel.x == xs.vx && r.wall == xs.wall)
      && (ChooseJump(jb, ys.grounded, xs.wall, MoveX(input)) == NoJump ==>
            r.facing == NewFacing(p.facing, ys.grounded, xs.wall, MoveX(input), xs.vx))
      && (jb > 0.0 && ys.grounded ==> r.facing == NewFacing(p.facing, false, xs.wall, MoveX(input), xs.vx))
  {
    var moveX := MoveX(input);
    var ys := ResolveY(g, p.pos.x, p.pos.y, FallSpeed(p));
    var xs := ResolveX(g, p.pos.x, p.pos.y, ys.y, moveX, ys.grounded);
    var jb := BufferStep(p.jumpBuffer, input.jumpPressed);
    var moved := p.(pos := Vec2(xs.x, ys.y));
    match ChooseJump(jb, ys.grounded, xs.wall, moveX)
    case GroundJump =>
      moved.(vel := Vec2(xs.vx, JumpPower), onGround := false, wall := xs.wall, jumpBuffer := 0.0,
             facing := NewFacing(p.facing, false, xs.wall, moveX, xs.vx))
    case WallJumpOffLeft =>
      moved.(vel := Vec2(WallJumpPowerX, WallJumpPowerY), onGround := false, wall := NoWall, jumpBuffer := 0.0,
             facing := NewFacing(FacingRight, false, NoWall, moveX, WallJumpPowerX))
    case WallJumpOffRight =>
      moved.(vel := Vec2(-WallJumpPowerX, WallJumpPowerY), onGround := false, wall := NoWall, jumpBuffer := 0.0,
             facing := NewFacing(FacingLeft, false, NoWall, moveX, -WallJumpPowerX))
    case NoJump =>
      moved.(vel := Vec2(xs.vx, ys.vy), onGround := ys.grounded, wall := xs.wall, jumpBuffer := jb,
             facing := NewFacing(p.facing, ys.grounded, xs.wall, moveX, xs.vx))
  }

  /**
    As written the wall jump can never fire: contact is recorded only while moving
    into the wall this tick, and the wall-jump guard demands input that does not.
  */
  lemma WallJumpUnreachable(g: Grid, p: PlayerState, input: Input)
    requires RowsCoverFirst(g)
    ensures
      var ys := ResolveY(g, p.pos.x, p.pos.y, FallSpeed(p));
      var xs := ResolveX(g, p.pos.x, p.pos.y, ys.y, MoveX(input), ys.grounded);
      var j := ChooseJump(BufferStep(p.jumpBuffer, input.jumpPressed), ys.grounded, xs.wall, MoveX(input));
      j == NoJump || j == GroundJump
  {
  }

  /** The tick's vertical resolution does not land the player (the input plays no part in it). */
  predicate Airborne(g: Grid, p: PlayerState)
    requires RowsCoverFirst(g)
  {
    !ResolveY(g, p.pos.x, p.pos.y, FallSpeed(p)).grounded
  }

  /** The player after one Update per input, in order. */
  function Play(g: Grid, p: PlayerState, inputs: seq<Input>): PlayerState
    requires RowsCoverFirst(g)
    decreases |inputs|
  {
    if |inputs| == 0 then p else Update(g, Play(g, p, inputs[..|inputs| - 1]), inputs[|inputs| - 1])
  }

  /**
    After a press and a run of airborne ticks without presses, the buffer holds what
    the countdown leaves: Update carries it unchanged into the next tick.
  */
  lemma {:induction false} AirborneTicksCarryBuffer(g: Grid, p: PlayerState, inputs: seq<Input>)
    requires RowsCoverFirst(g) && |inputs| >= 1
    requires inputs[0].jumpPressed
    requires forall i :: 1 <= i < |inputs| ==> !inputs[i].jumpPressed
    requires forall i :: 0 <= i < |inputs| ==> Airborne(g, Play(g, p, inputs[..i]))
    ensures Play(g, p, inputs).jumpBuffer == BufferAfter(BufferTime, |inputs| - 1)
    decreases |inputs|
  {
    var n := |inputs|;
    var prefix := inputs[..n - 1];
    var prev := Play(g, p, prefix);
    WallJumpUnreachable(g, prev, inputs[n - 1]);
    if n > 1 {
      assert forall i :: 0 <= i < |prefix| ==> prefix[..i] == inputs[..i];
      AirborneTicksCarryBuffer(g, p, prefix);
    }
  }

  /**
    The buffered jump, tick by tick through Update: after a press on tick 0 and
    airborne ticks with no further press, a landing on tick n (n >= 1) jumps when
    n <= 6 and just lands when n >= 7.
  */
  lemma BufferedJumpWindow(g: Grid, p: PlayerState, inputs: seq<Input>, landing: Input)
    requires RowsCoverFirst(g) && |inputs| >= 1
    requires inputs[0].jumpPressed && !landing.jumpPressed
    requires forall i :: 1 <= i < |inputs| ==> !inputs[i].jumpPressed
    requires forall i :: 0 <= i < |inputs| ==> Airborne(g, Play(g, p, inputs[..i]))
    requires !Airborne(g, Play(g, p, inputs))
    ensures var r := Update(g, Play(g, p, inputs), landing);
            && (|inputs| <= 6 ==> r.vel.y == JumpPower && !r.onGround && r.jumpBuffer == 0.0)
            && (|inputs| >= 7 ==> r.onGround && r.vel.y == 0.0)
  {
    AirborneTicksCarryBuffer(g, p, inputs);
    BufferWindow(0.0, |inputs|);
    BufferCountdown(|inputs| - 1);
    WallJumpUnreachable(g, Play(g, p, inputs), landing);
  }

  // ---------------------------------------------------------------------------
  // Life cycle and the exit lane
  // ---------------------------------------------------------------------------

  /** Moves the player, clears motion, contact and buffer, and makes `pos` the respawn point. */
  function SetPosition(p: PlayerState, pos: Vec2): (r: PlayerState)
    ensures r.pos == pos && r.respawn == pos
    ensures r.vel == Vec2(0.0, 0.0) && !r.onGround && r.wall == NoWall && r.jumpBuffer == 0.0
    ensures r.alive == p.alive && r.facing == p.facing
  {
    p.(pos := pos, vel := Vec2(0.0, 0.0), onGround := false, wall := NoWall, jumpBuffer := 0.0, respawn := pos)
  }

  /** Player::Initialize: facing front, alive, placed at the initial position. */
  function Initialize(): (r: PlayerState)
    ensures r.alive && r.pos == InitialPosition && r.respawn == InitialPosition && r.facing == Front
    ensures r.vel == Vec2(0.0, 0.0) && !r.onGround && r.wall == NoWall && r.jumpBuffer == 0.0
  {
    SetPosition(PlayerState(Vec2(0.0, 0.0), Vec2(0.0, 0.0), false, NoWall, 0.0, true, Vec2(0.0, 0.0), Front),
                InitialPosition)
  }

  function Die(p: PlayerState): (r: PlayerState)
    ensures !r.alive && r.vel == Vec2(0.0, 0.0)
    ensures r.pos == p.pos && r.respawn == p.respawn
    ensures r.onGround == p.onGround && r.wall == p.wall && r.jumpBuffer == p.jumpBuffer && r.facing == p.facing
  {
    p.(alive := false, vel := Vec2(0.0, 0.0))
  }

  /** Returns to the recorded respawn point, alive. */
  function Reset(p: PlayerState): (r: PlayerState)
    ensures r.alive && r.pos == p.respawn && r.respawn == p.respawn
    ensures r.vel == Vec2(0.0, 0.0) && !r.onGround && r.wall == NoWall && r.jumpBuffer == 0.0
  {
    SetPosition(p, p.respawn).(alive := true)
  }

  /** Death is fully undone by Reset, and Reset after SetPosition(q) lands at q. */
  lemma ResetUndoesDeath(p: PlayerState, q: Vec2)
    ensures Reset(Die(p)) == Reset(p)
    ensures Reset(Reset(p)) == Reset(p)
    ensures Reset(Die(SetPosition(p, q))).pos == q
  {
  }

  /** Past the map's right edge (centre beyond the width) and inside the exit band. */
  function IsExiting(g: Grid, p: PlayerState): (exiting: bool)
    ensures exiting ==> p.pos.x > ColCount(g) as real * BlockSize && p.pos.x > 0.0
    ensures exiting <==> p.pos.x > MapWidth(g) && (p.pos.y > TopExitMinY || p.pos.y < BottomExitMaxY)
    ensures ColCount(g) == 0 ==> (exiting <==> p.pos.x > 14.0 && (p.pos.y > 7.7 || p.pos.y < 0.7))
  {
    p.pos.x > MapWidth(g) && InExitBand(p.pos.y)
  }

  /**
    The exit lane lies wholly in the region the grid already treats as solid: on a
    non-empty map every exiting position is outside the grid.
  */
  lemma ExitingIsOutsideGrid(g: Grid, p: PlayerState)
    requires RowsCoverFirst(g) && |g| > 0 && ColCount(g) > 0
    requires IsExiting(g, p)
    ensures !InsideWorld(g, p.pos)
    ensures CheckCollision(g, p.pos)
  {
  }

  /** Scenario: falling onto a floor from 0.05 tiles above it lands exactly on the tile's top. */
  lemma LandingExample()
    ensures
      var g: Grid := [[0, 0, 0], [1, 1, 1]];
      var p := SetPosition(Initialize(), Vec2(1.05, BlockSize + HalfSize + 0.05 * BlockSize)).(vel := Vec2(0.0, -0.2));
      var r := Update(g, p, Input(false, false, false));
      r.onGround && r.pos.y == BlockSize + HalfSize && r.vel.y == 0.0
  {
    var g: Grid := [[0, 0, 0], [1, 1, 1]];
    var p := SetPosition(Initialize(), Vec2(1.05, BlockSize + HalfSize + 0.05 * BlockSize)).(vel := Vec2(0.0, -0.2));
    var b := p.pos.y + FallSpeed(p) - HalfSize;
    TileIndexUnique(b, 0);
    TileIndexUnique(1.05 - HalfSize, 1);
    TileIndexUnique(1.05 + HalfSize, 1);
    assert CheckCollision(g, Vec2(1.05 - HalfSize, b));
  }
}

=== FILE: playerbullet.dfy ===
/**
  The player's bullet: it flies horizontally at a fixed speed for a limited lifetime
  and is removed when that lifetime runs out or when it enters a solid cell.
*/
module PlayerBullet {
  import opened Geometry
  import opened MapChip

  /** Seconds a bullet lives. */
  const LifeTime: real := 2.0
  /** Fixed tick length (60 ticks per second). */
  const DeltaTime: real := 1.0 / 60.0

  datatype Bullet = Bullet(pos: Vec2, vx: real, life: real)

  /** Why an update asks for the bullet's removal; `Kept` when it does not. */
  datatype Removal = Kept | Expired | HitWall

  datatype BulletStep = BulletStep(bullet: Bullet, removal: Removal)
  {
    /** The source's boolean answer: true when the bullet should be removed. */
    predicate Remove()
    {
      removal != Kept
    }
  }

  function Initialize(pos: Vec2, vx: real): (b: Bullet)
    ensures b.pos == pos && b.vx == vx && b.life == LifeTime
  {
    Bullet(pos, vx, LifeTime)
  }

  /** The motion part of an update: one step along x and one tick of lifetime spent. */
  function Move(b: Bullet): (m: Bullet)
    ensures m.pos.y == b.pos.y && m.vx == b.vx
    ensures m.pos.x - b.pos.x == b.vx
    ensures b.life - m.life == DeltaTime
  {
    b.(pos := Vec2(b.pos.x + b.vx, b.pos.y), life := b.life - DeltaTime)
  }

  /**
    One update: move, then report expiry first and a wall hit at the new position
    second.
  */
  function Update(b: Bullet, g: Grid): (r: BulletStep)
    requires RowsCoverFirst(g)
    ensures r.bullet == Move(b)
    ensures r.removal == Expired <==> r.bullet.life <= 0.0
    ensures r.removal == HitWall <==> r.bullet.life > 0.0 && CheckCollision(g, r.bullet.pos)
    ensures r.Remove() <==> r.bullet.life <= 0.0 || CheckCollision(g, r.bullet.pos)
  {
    var moved := Move(b);
    if moved.life <= 0.0 then BulletStep(moved, Expired)
    else if CheckCollision(g, moved.pos) then BulletStep(moved, HitWall)
    else BulletStep(moved, Kept)
  }

  /** The bullet after `n` updates, had none of them asked for removal. */
  function Fly(b: Bullet, n: nat): Bullet
  {
    if n == 0 then b else Move(Fly(b, n - 1))
  }

  /** After `n` updates the bullet has moved n steps along x, kept its height, and spent n ticks. */
  lemma {:induction false} FlyClosedForm(b: Bullet, n: nat)
    ensures Fly(b, n).pos == Vec2(b.pos.x + n as real * b.vx, b.pos.y)
    ensures Fly(b, n).vx == b.vx
    ensures Fly(b, n).life == b.life - n as real * DeltaTime
  {
    if n > 0 {
      FlyClosedForm(b, n - 1);
      var m := (n - 1) as real;
      assert m * b.vx + b.vx == n as real * b.vx;
      assert m * DeltaTime + DeltaTime == n as real * DeltaTime;
    }
  }

  /**
    A fresh bullet expires exactly on its 120th update: every earlier update finds
    lifetime left, and the 120th (or any later one it might survive to) finds none.
  */
  lemma ExpiresOnUpdate120(pos: Vec2, vx: real, g: Grid, n: nat)
    requires RowsCoverFirst(g) && n >= 1
    ensures Update(Fly(Initialize(pos, vx), n - 1), g).removal == Expired <==> n >= 120
  {
    FlyClosedForm(Initialize(pos, vx), n - 1);
  }

  /** A bullet that neither expired nor hit a wall is inside a non-solid cell of the grid. */
  lemma KeptBulletIsInOpenCell(b: Bullet, g: Grid)
    requires RowsCoverFirst(g) && |g| > 0
    requires !Update(b, g).Remove()
    ensures InsideWorld(g, Update(b, g).bullet.pos)
    ensures var c := CellOf(g, Update(b, g).bullet.pos); InGrid(g, c) && g[c.row][c.col] != Solid
  {
  }
}

=== FILE: trap.dfy ===
/**
  The ambush trap: a wall that waits off-screen, charges horizontally when the player
  enters its height band, holds, retreats, and then stays finished until Reset.
*/
module Trap {
  import opened Geometry
  import Player

  /** Distance the wall moves per tick, while attacking and while returning. */
  const Speed: real := 0.2
  /** Seconds the wall holds at its target. */
  const WaitTime: real := 2.0
  /** Fixed tick length (60 ticks per second). */
  const DeltaTime: real := 1.0 / 60.0
  const WallHalfSize: real := BlockSize / 2.0
  /** The trap assumes a 20-column map, whatever the grid holds. */
  const MapWidth: real := 20.0 * BlockSize
  const OffscreenMargin: real := BlockSize * 3.0
  /** A stop margin below this makes a "peek" trap whose target ignores the player. */
  const ShortTrapLimit: real := BlockSize * 0.8

  datatype Side = FromLeft | FromRight

  datatype Phase = Idle | Attacking | Waiting | Returning | Finished

  datatype TrapState = TrapState(
    side: Side,
    trapY: real,
    stopMargin: real,
    phase: Phase,
    x: real,
    waitTimer: real,
    inZone: bool,
    startX: real,
    targetX: real,
    returnX: real)

  datatype TrapStep = TrapStep(trap: TrapState, killed: bool)

  /** The off-screen waiting position on the trap's side. */
  function SpawnX(side: Side): (x: real)
    ensures side == FromLeft ==> x < 0.0
    ensures side == FromRight ==> x > MapWidth
  {
    if side == FromLeft then -OffscreenMargin else MapWidth + OffscreenMargin
  }

  /** Back to Idle off-screen, with the timer and the zone memory cleared. */
  function Reset(t: TrapState): (r: TrapState)
    ensures r.phase == Idle && r.waitTimer == 0.0 && !r.inZone && r.x == SpawnX(t.side)
    ensures r.side == t.side && r.trapY == t.trapY && r.stopMargin == t.stopMargin
  {
    t.(phase := Idle, waitTimer := 0.0, inZone := false, x := SpawnX(t.side))
  }

  function Initialize(triggerY: real, side: Side, stopMargin: real): (r: TrapState)
    ensures r.phase == Idle && r.trapY == triggerY && r.side == side && r.stopMargin == stopMargin
    ensures r.x == SpawnX(side) && r.waitTimer == 0.0 && !r.inZone
  {
    Reset(TrapState(side, triggerY, stopMargin, Idle, 0.0, 0.0, false, 0.0, 0.0, 0.0))
  }

  /** The player's centre is within half a tile of the trap's height. */
  predicate InBand(t: TrapState, p: Player.PlayerState)
  {
    Abs(p.pos.y - t.trapY) < BlockSize * 0.5
  }

  predicate IsShort(t: TrapState)
  {
    t.stopMargin < ShortTrapLimit
  }

  /** The stand-off point a charge aims at, computed once when the trap fires. */
  function TargetX(t: TrapState, px: real): (target: real)
    ensures t.side == FromLeft && !IsShort(t) ==> target >= WallHalfSize
    ensures t.side == FromRight && !IsShort(t) ==> target <= MapWidth - WallHalfSize
    ensures t.side == FromLeft && t.stopMargin >= 0.0 ==> target >= WallHalfSize
    ensures t.side == FromRight && t.stopMargin >= 0.0 ==> target <= MapWidth - WallHalfSize
    ensures t.side == FromLeft && !IsShort(t) && px - t.stopMargin - Player.HalfSize >= WallHalfSize ==>
              target == px - t.stopMargin - Player.HalfSize
    ensures t.side == FromRight && !IsShort(t) && px + t.stopMargin + Player.HalfSize <= MapWidth - WallHalfSize ==>
              target == px + t.stopMargin + Player.HalfSize
    ensures t.side == FromLeft && !IsShort(t) && px - t.stopMargin - Player.HalfSize < WallHalfSize ==>
              target == WallHalfSize
    ensures t.side == FromRight && !IsShort(t) && px + t.stopMargin + Player.HalfSize > MapWidth - WallHalfSize ==>
              target == MapWidth - WallHalfSize
    ensures t.side == FromLeft && IsShort(t) ==> target == WallHalfSize + t.stopMargin
    ensures t.side == FromRight && IsShort(t) ==> target == MapWidth - WallHalfSize - t.stopMargin
  {
    if t.side == FromLeft then
      if IsShort(t) then WallHalfSize + t.stopMargin
      else
        var aim := px - t.stopMargin - Player.HalfSize;
        if aim < WallHalfSize then WallHalfSize else aim
    else
      if IsShort(t) then MapWidth - WallHalfSize - t.stopMargin
      else
        var aim := px + t.stopMargin + Player.HalfSize;
        if aim > MapWidth - WallHalfSize then MapWidth - WallHalfSize else aim
  }

  /** A short ("peek") trap aims at the same point wherever the player stands. */
  lemma ShortTargetIgnoresPlayer(t: TrapState, px1: real, px2: real)
    requires IsShort(t)
    ensures TargetX(t, px1) == TargetX(t, px2)
  {
  }

  /** Firing: start off-screen on the trap's side, aim, and remember to come back to the start. */
  function Arm(t: TrapState, p: Player.PlayerState): (r: TrapState)
    ensures r.phase == Attacking && r.startX == SpawnX(t.side) && r.returnX == r.startX && r.x == r.startX
    ensures r.targetX == TargetX(t, p.pos.x)
  {
    t.(phase := Attacking, startX := SpawnX(t.side), targetX := TargetX(t, p.pos.x),
       returnX := SpawnX(t.side), x := SpawnX(t.side))
  }

  /** One step of the charge: Speed toward the target, snapping onto it and starting the wait on arrival. */
  function Advance(t: TrapState): (r: TrapState)
    requires t.phase == Attacking
    ensures t.side == FromLeft ==> r.x <= t.targetX
    ensures t.side == FromRight ==> r.x >= t.targetX
    ensures r.phase == Waiting || r.phase == Attacking
    ensures r.phase == Waiting <==> r.x == t.targetX
    ensures r.phase == Waiting ==> r.waitTimer == WaitTime
    ensures r.phase != Waiting ==> r.x == (if t.side == FromLeft then t.x + Speed else t.x - Speed)
    ensures r.phase == Waiting <==> (if t.side == FromLeft then t.x + Speed >= t.targetX else t.x - Speed <= t.targetX)
  {
    var nx := if t.side == FromLeft then t.x + Speed else t.x - Speed;
    var arrived := if t.side == FromLeft then nx >= t.targetX else nx <= t.targetX;
    if arrived then t.(x := t.targetX, phase := Waiting, waitTimer := WaitTime) else t.(x := nx)
  }

  /** One step of the retreat: Speed back toward the start, finishing exactly there. */
  function Retreat(t: TrapState): (r: TrapState)
    requires t.phase == Returning
    ensures t.side == FromLeft ==> r.x >= t.returnX
    ensures t.side == FromRight ==> r.x <= t.returnX
    ensures r.phase == Finished <==> r.x == t.returnX
    ensures r.phase != Finished ==> r.phase == Returning
    ensures r.phase != Finished ==> r.x == (if t.side == FromLeft then t.x - Speed else t.x + Speed)
    ensures r.phase == Finished <==> (if t.side == FromLeft then t.x - Speed <= t.returnX else t.x + Speed >= t.returnX)
  {
    var nx := if t.side == FromLeft then t.x - Speed else t.x + Speed;
    var back := if t.side == FromLeft then nx <= t.returnX else nx >= t.returnX;
    if back then t.(x := t.returnX, phase := Finished) else t.(x := nx)
  }

  /** Closed box overlap between the player and the wall (touching counts). */
  function Touches(t: TrapState, p: Player.PlayerState): (touching: bool)
    ensures touching <==> Abs(p.pos.x - t.x) <= Player.HalfSize + WallHalfSize
                          && Abs(p.pos.y - t.trapY) <= Player.HalfSize + WallHalfSize
  {
    BoxesTouchByDistance(p.pos, Player.HalfSize, Vec2(t.x, t.trapY), WallHalfSize);
    BoxesTouch(p.pos, Player.HalfSize, Vec2(t.x, t.trapY), WallHalfSize)
  }

  /** In the lethal phases a touching wall kills the player and turns back at once. */
  function Strike(t: TrapState, p: Player.PlayerState): (r: TrapStep)
    ensures r.killed <==> Touches(t, p)
    ensures r.killed ==> r.trap == t.(phase := Returning)
    ensures !r.killed ==> r.trap == t
  {
    if Touches(t, p) then TrapStep(t.(phase := Returning), true) else TrapStep(t, false)
  }

  /** One Trap::Update against the player's state after its own update this tick. */
  function Update(t: TrapState, p: Player.PlayerState): (r: TrapStep)
    ensures t.phase == Finished || !p.alive ==> r == TrapStep(t, false)
    ensures r.killed ==> p.alive && (t.phase == Attacking || t.phase == Waiting) && r.trap.phase == Returning
    ensures r.trap.side == t.side && r.trap.trapY == t.trapY && r.trap.stopMargin == t.stopMargin
    ensures t.phase != Finished && p.alive ==> r.trap.inZone == InBand(t, p)
    ensures t.phase == Idle ==>
              (r.trap.phase == Attacking <==> p.alive && InBand(t, p) && !t.inZone)
    ensures t.phase == Idle && r.trap.phase == Attacking ==>
              r.trap.targetX == TargetX(t, p.pos.x) && r.trap.returnX == r.trap.startX == r.trap.x == SpawnX(t.side)
    ensures t.phase == Idle && r.trap.phase != Attacking ==> r.trap.phase == Idle && r.trap.x == t.x
    ensures t.phase == Idle && p.alive && r.trap.phase != Attacking ==> r.trap == t.(inZone := InBand(t, p))
    ensures t.phase == Attacking && p.alive ==> r == Strike(Advance(t.(inZone := InBand(t, p))), p)
    ensures t.phase == Waiting && p.alive ==>
              var t2 := t.(inZone := InBand(t, p), waitTimer := t.waitTimer - DeltaTime);
              r == Strike(if t2.waitTimer <= 0.0 then t2.(phase := Returning) else t2, p)
    ensures t.phase == Returning && p.alive ==> r.trap == Retreat(t.(inZone := InBand(t, p))) && !r.killed
    ensures r.trap.targetX == t.targetX || t.phase == Idle
    ensures r.trap.returnX == t.returnX || t.phase == Idle
  {
    if t.phase == Finished || !p.alive then TrapStep(t, false)
    else
      var t1 := t.(inZone := InBand(t, p));
      match t.phase
      case Idle =>
        if InBand(t, p) && !t.inZone then TrapStep(Arm(t1, p), false) else TrapStep(t1, false)
      case Attacking =>
        Strike(Advance(t1), p)
      case Waiting =>
        var t2 := t1.(waitTimer := t1.waitTimer - DeltaTime);
        Strike(if t2.waitTimer <= 0.0 then t2.(phase := Returning) else t2, p)
      case Returning =>
        TrapStep(Retreat(t1), false)
  }

  /** Position of a phase in the one-shot sequence. */
  function Rank(ph: Phase): nat
  {
    match ph
    case Idle => 0
    case Attacking => 1
    case Waiting => 2
    case Returning => 3
    case Finished => 4
  }

  /**
    Without Reset the phases only move forward through Idle, Attacking, Waiting,
    Returning, Finished; in particular Returning never goes back to Idle.
  */
  lemma PhasesOnlyAdvance(t: TrapState, p: Player.PlayerState)
    ensures Rank(Update(t, p).trap.phase) >= Rank(t.phase)
    ensures t.phase == Returning ==> Update(t, p).trap.phase in {Returning, Finished}
  {
  }

  /** While charging, the wall never passes its target, and arriving starts a 2-second wait. */
  lemma ChargeNeverOvershoots(t: TrapState, p: Player.PlayerState)
    requires t.phase == Attacking && p.alive
    ensures t.side == FromLeft ==> Update(t, p).trap.x <= t.targetX
    ensures t.side == FromRight ==> Update(t, p).trap.x >= t.targetX
    ensures Update(t, p).trap.phase == Waiting ==> Update(t, p).trap.x == t.targetX && Update(t, p).trap.waitTimer == WaitTime
  {
  }

  /** `n` updates against a player that does not move. */
  function Run(t: TrapState, p: Player.PlayerState, n: nat): TrapState
  {
    if n == 0 then t else Update(Run(t, p, n - 1), p).trap
  }

  /**
    A wait that starts at 2 seconds lasts 120 ticks in exact arithmetic: the wall is
    still waiting after n < 120 updates and returning after the 120th, as long as the
    live player stays clear of it.
  */
  lemma {:induction false} WaitLasts120Ticks(t: TrapState, p: Player.PlayerState, n: nat)
    requires t.phase == Waiting && t.waitTimer == WaitTime
    requires p.alive && !Touches(t, p)
    requires n <= 120
    ensures Run(t, p, n).x == t.x && Run(t, p, n).trapY == t.trapY
    ensures n < 120 ==> Run(t, p, n).phase == Waiting && Run(t, p, n).waitTimer == WaitTime - n as real * DeltaTime
    ensures n == 120 ==> Run(t, p, n).phase == Returning
  {
    if n > 0 {
      WaitLasts120Ticks(t, p, n - 1);
      var prev := Run(t, p, n - 1);
      assert prev.phase == Waiting;
      assert !Touches(prev, p);
    }
  }

  /** Once finished, any number of updates leaves the trap exactly as it is. */
  lemma {:induction false} FinishedIsAbsorbing(t: TrapState, p: Player.PlayerState, n: nat)
    requires t.phase == Finished
    ensures Run(t, p, n) == t
  {
    if n > 0 {
      FinishedIsAbsorbing(t, p, n - 1);
    }
  }

  /**
    Edge triggering: an idle trap whose player was already in the band last tick does not
    fire, however long the player stays, and keeps remembering the player as inside.
  */
  lemma {:induction false} StayingInBandNeverFires(t: TrapState, p: Player.PlayerState, n: nat)
    requires t.phase == Idle && t.inZone && InBand(t, p)
    ensures Run(t, p, n).phase == Idle && Run(t, p, n).inZone
    ensures Run(t, p, n).x == t.x
  {
    if n > 0 {
      StayingInBandNeverFires(t, p, n - 1);
    }
  }
}
